=== FILE: README.md ===
# Sudoku constraint propagation, modelled in Dafny

This project models the solving engine of a small Rust Sudoku solver (`src/main.rs`):

- **Cell.** A `SudokuPos` is a cell. It has a value (0 while unknown) and a set of candidate digits.
- **Board.** A `SudokuBoard` is 9x9 cells.
- **`set`.** Writing a value with `set` clears that cell's candidates. It also removes the value from the candidates of every cell in the same row, column and 3x3 box (its *peers*).
- **`solve`.** `solve` sweeps the board in row-major order. At each unknown cell it applies, in this order:
  - a *naked single*: the cell has one candidate left;
  - a *hidden single* in the row, then the column, then the box: a candidate that no other cell of that unit still lists. For the box, only unknown cells are compared.
- **When `solve` stops.** It repeats sweeps until one of three things happens:
  - it sees no unknown cell, and succeeds;
  - it meets an unknown cell with no candidates, and fails;
  - a whole sweep changes nothing, and it fails.
- **The driver.** The driver loads a grid of givens and runs `solve`. It then tries every single guess on the board `solve` left behind: a copy with one candidate placed, then `solve` again. It reports every guess that `solve` finishes.

Two terms recur below:

- A board is *consistent* (`Invariants.Consistent`) when no two peers hold the same value, a placed cell has no candidates, and no cell lists a value one of its peers holds. This is stronger than the plain Sudoku rule, which speaks of values only.
- A solution *agrees with* a board (`Forcing.Completes`) when it is a full board that breaks no row, column or box rule, holds every placed value of the board, and holds one of the candidates at every unknown cell.

Everything is functional.

- A board is a flat sequence of 81 cells in row-major order. The source's vector of nine rows holds the same data.
- `set` is a pure function built from recursive helpers, one per removal loop.
- The loops of `solve` are methods whose invariants carry the proof.
- `solve` also produces a ghost trace of moves. Each move records the digit, the cell and the rule that justified it.
- `count_and_set` picks a digit whose count is 1 from a `HashMap`, in hash order. The model lets it pick any such digit (`:|`). The same holds for the guess loop's walk over a `HashSet` of candidates.

The main results:

- **`set` has a cellwise specification (`Placed`).** `set` meets it, and setting the same value twice is the same as setting it once.
- **`new_with` yields exactly the expected candidates.** Every unknown cell ends up with exactly the digits that no given peer holds. The loaded board is consistent if and only if the givens break no row, column or box rule.
- **Each counting loop agrees with its rule.** A digit keeps the count 1 exactly when it is a hidden single of that unit.
- **`solve` terminates and makes only justified moves.**
  - It terminates: the set of unknown cells shrinks with every productive sweep.
  - Every move it makes is justified by a rule, and each move refines the board.
  - It returns true exactly when the board is full.
  - When it returns false, there is a dead cell or no rule fires anywhere.
  - On a consistent board, a true result is a solution.
- **The rules are sound.** In every solution that agrees with a board, the digit a rule names is the one that cell holds. So `solve` never loses a solution. A dead cell proves the puzzle has none, and when `solve` alone finishes a valid puzzle, that solution is unique.
- **The guess loop is complete and sound.** Every candidate of every unknown cell is tried once. Each recorded board is one that `solve` can leave from the copy with that candidate set: it follows from the copy by justified moves, and unless full it has a dead cell or is stalled. The boards kept are exactly the full ones among them. So the program reports success exactly when the first `solve` or some guess filled the board. Every board the guess loop reports is a solution of the puzzle.

The program has no parallel search, no `is_exhausted` query and no brute-force solver. Its only search is the one-level guess loop in `main`. `Solver.Exhausted` is an unknown cell with no candidates, the state on which `solve` returns false at once (src/main.rs:101-103).

## Model

| member | source | states |
|---|---|---|
| `Cells.NewCell` | src/main.rs:19-26 | A new cell holds its value. An unknown cell may still become any digit 1..9, so it has nine candidates. A given cell has none. |
| `Loading.Empty` | src/main.rs:35-46 | The empty board is well formed. For any grid, it is the state of `new_with` before the first given is placed. |
| `Loading.NewWith` | src/main.rs:48-56 | After setting every given in row-major order, each cell holds its given. A given cell has no candidates. An unknown cell has exactly the digits that none of its peers is given. |
| `Loading.LoadStep` | src/main.rs:50-55 | One `set` of the next given extends the loaded prefix by one cell, candidates included. |
| `Loading.LoadCell` | src/main.rs:52 | The body of the `new_with` loop for one cell. Setting that cell's given extends the loaded prefix by one cell. |
| `Loading.LoadedConsistent` | src/main.rs:48-56 | A loaded board is consistent if and only if its givens break no row, column or box rule. |
| `Loading.SameValues` | src/main.rs:220-231 | Board-to-grid equality is true exactly when every cell's value equals the grid entry. Candidates are ignored. |
| `Boards.Set` | src/main.rs:58-80 | `set` puts the value in the cell and leaves every other value alone. A nonzero value also clears the cell's candidates and removes the value from the candidates of exactly its peers. Zero leaves the candidates untouched. |
| `Boards.Spread` | src/main.rs:64-78 | The row, column and box removal loops together strip the value from exactly the peers of the cell and change nothing else. |
| `Boards.DiscardInRow` | src/main.rs:64-66 | The row loop of `set`: in the given row, every cell in the walked column range loses the value from its candidates, and its value is kept. Every other cell is unchanged. |
| `Boards.DiscardInColumn` | src/main.rs:68-70 | The column loop of `set`: in the given column, every cell in the walked row range loses the value from its candidates, and its value is kept. Every other cell is unchanged. |
| `Boards.DiscardInBox` | src/main.rs:72-78 | The nested box loop strips the value from the three-by-three block starting at the box's first cell and from nothing else. |
| `Boards.SetEffect` | src/main.rs:58-80 | Consequences of `set` for callers: the value lands in the cell, and a nonzero value leaves no peer listing it. Other values are kept and no candidate set grows. |
| `Boards.SetIdempotent` | src/main.rs:58-80 | Setting the same value at the same cell twice gives the same board as setting it once. |
| `Boards.PlacedIsSet` | src/main.rs:58-80 | The cellwise effect of `set` determines the board: any board it relates to `b` is the one `set` returns. |
| `Invariants.AssignKeepsConsistent` | src/main.rs:58-80 | Placing a candidate of an unknown cell on a consistent board keeps it consistent. |
| `Invariants.AssignRefines` | src/main.rs:58-80 | Placing a candidate of an unknown cell only refines the board: placed values stay, and the new value was a candidate. |
| `Invariants.AssignCloses` | src/main.rs:58-80 | Placing a nonzero value in an unknown cell removes exactly that position from the set of unknown cells. |
| `Invariants.RefinesTransitive` | src/main.rs:90-201 | Refinement composes, so a sequence of `solve`'s moves refines the board it starts from. |
| `Deduction.RowCounts` | src/main.rs:135-150 | Starting from a count of 1 per candidate of the cell, a candidate's count stays 1 exactly when no other cell of the row lists it. |
| `Deduction.ColumnCounts` | src/main.rs:152-167 | A candidate's count stays 1 exactly when no other cell of the column lists it. |
| `Deduction.BoxCounts` | src/main.rs:169-184 | Walking the box from its first cell, a candidate's count stays 1 exactly when no other unknown cell of the box lists it. |
| `Deduction.BoxRowCounts` | src/main.rs:174-183 | One row of the box walk. No candidate is added or dropped and every count stays at least 1. A count stays 1 exactly when no unknown cell of the box other than this one, up to and including this row, lists the candidate. |
| `Deduction.PickSingle` | src/main.rs:123-133 | `count_and_set` finds a digit with count 1 exactly when one exists, and the digit it returns has count 1. |
| `Deduction.RowSingleAt` | src/main.rs:135-150 | The row test of `solve`. A digit it returns is a candidate of the cell that no other cell of the row lists. It returns none exactly when no candidate is a hidden single of the row. |
| `Deduction.ColumnSingleAt` | src/main.rs:152-167 | The column test. A digit it returns is a candidate of the cell that no other cell of the column lists. It returns none exactly when no candidate is a hidden single of the column. |
| `Deduction.BoxSingleAt` | src/main.rs:169-188 | The box test. A digit it returns is a candidate of the cell that no other unknown cell of the box lists. It returns none exactly when no candidate is a hidden single of the box. |
| `Deduction.Deduce` | src/main.rs:100-188 | At an unknown cell, a move is made exactly when some rule fires. The move names a candidate and the first rule that fires, in the order naked single, row, column, box. |
| `Solver.Apply` | src/main.rs:106-131 | A move of `solve` is one `set` of its digit at its cell. The result has the cellwise effect of `set`: the digit is written into the cell, a nonzero digit also clears that cell's candidates and leaves the candidates of every peer, and every other cell is as it was. |
| `Solver.VisitCell` | src/main.rs:97-189 | One cell of a sweep. It is open iff unknown, dead iff unknown with no candidates, and moved iff some rule fires. A move closes exactly that cell and keeps every other value. |
| `Solver.Pass` | src/main.rs:92-191 | One sweep. It reports a dead cell, or whether it saw an unknown cell (iff the board was not full) and whether it progressed. A sweep that progressed closed at least one cell. A sweep that saw unknown cells and made no move leaves the board unchanged and stalled. |
| `Solver.SweepRow` | src/main.rs:96-190 | The nine cells of one row, left to right. It stops at a dead cell, which means the board the sweep started from was not full. Otherwise it extends the sweep state to the next row: values ahead are untouched, and the flags are as `solve` sets them. |
| `Solver.Solve` | src/main.rs:90-201 | `solve` terminates. Its moves are justified and refine the board. It returns true iff the board is full; false means a dead cell or a stall. A full start is left as is. Consistency is kept, so a true result on a consistent board is a solution. Every solution of the start is a solution of the result. A dead cell means the start has no solution. |
| `Solver.FollowsExtend` | src/main.rs:107-110 | A justified move extends a trace of justified moves. |
| `Solver.TraceRefines` | src/main.rs:90-201 | The board at the end of a trace of justified moves refines the board at its start. |
| `Solver.TraceKeepsConsistent` | src/main.rs:90-201 | A trace of justified moves keeps a consistent board consistent. |
| `Solver.TraceKeepsCompletion` | src/main.rs:90-201 | Every solution that agrees with the start of a trace of justified moves agrees with its end. |
| `Forcing.RowHas` | src/main.rs:135-150 | In a solution, every digit appears in every row, which is why a row's hidden single is forced. |
| `Forcing.BoxHas` | src/main.rs:169-188 | In a solution, every digit appears in every box. |
| `Forcing.ColumnHas` | src/main.rs:152-167 | In a solution, every digit appears in every column, which is why a column's hidden single is forced. |
| `Forcing.JustifiedForced` | src/main.rs:100-188 | On a consistent board, the digit a rule names is the one every agreeing solution holds in that cell. |
| `Forcing.PlacedKeepsCompletion` | src/main.rs:58-80 | Placing the digit a solution holds keeps that solution agreeing with the board. |
| `Puzzle.TryGuess` | src/main.rs:268-275 | A guess sets a candidate in a copy and runs `solve` on it. The copy after the `set` is the board `set` produces, and the result follows from it by `solve`'s justified moves; a failure has a dead cell or is stalled. The result refines the board and holds the guessed digit. It succeeds iff the result is full, and a success on a consistent board is a solution of it. |
| `Puzzle.GuessOne` | src/main.rs:267-275 | One candidate of the cell's loop: its guess is added to the record with the board `solve` left behind, and that board is kept exactly when it is full. Earlier kept boards stay, and at most the one new board, full and holding the candidate, is appended. |
| `Puzzle.GuessCell` | src/main.rs:265-277 | Every candidate of the cell is guessed once, on a copy of the board. The record maps each candidate to the board its `solve` left behind: reached by justified moves from the copy with that candidate set, and dead or stalled unless full. It holds that candidate in the cell and refines the board. The kept boards are exactly the full ones among them; on a consistent board each is a solution. |
| `Puzzle.GuessRow` | src/main.rs:264-277 | The unknown cells of one row, left to right: the record grows by exactly those cells, each with all its candidates, and the kept boards stay exactly the full results. Known cells are skipped. |
| `Puzzle.GuessSingle` | src/main.rs:263-279 | The record has an entry for exactly the unknown cells, each mapping every candidate to the board its guess's `solve` left behind (reached by justified moves from the guessed copy, dead or stalled unless full). The kept boards are exactly the full results; each is full and refines the board, and on a consistent board it is a solution of it. A full board yields no guesses. |
| `Puzzle.KeptIffSomeGuessFull` | src/main.rs:270-274 | The guess loop keeps a board exactly when some guess's `solve` filled the board, which is when it sets `solved`. |
| `Puzzle.SolvePuzzle` | src/main.rs:253-279 | `board` is what the first `solve` leaves of the board `new_with` loads from the givens: it follows from it by justified moves, and unless full it has a dead cell or is stalled. The program reports success iff the first `solve` fills the board or some guess's `solve` fills its copy, with the guesses recorded for every candidate of every unknown cell. For valid givens: no solution of the puzzle is lost by the first `solve`, a full result is a solution, a dead cell means the puzzle has none, and every reported guess board is a solution. |
| `Puzzle.SolvedBoardIsUnique` | src/main.rs:253-259 | When the first `solve` fills the board of a valid puzzle, every solution agrees with it cell by cell: the solution is unique. |

## Left out

- Reading the puzzle from standard input (src/main.rs:237-251): I/O, and the 81-digit grid is the model's input.
- Printing and logging:
  - printing boards and results;
  - `log::debug!` and `env_logger`;
  - `Display for SudokuBoard` (src/main.rs:204-218).

  All of this is output only.
- `get_mut` (src/main.rs:86-88): it exists only to mutate a cell in place. The model's `Boards.At` and `Boards.Update` cover `get` and the writes.
- The two tests (src/main.rs:291-378): replaying concrete puzzles would need executing the deduction, which the verifier does not do.
- `u32` width of values and counts: values are only compared and counts never exceed 9, so unbounded naturals behave the same.
- Hash order:
  - `count_and_set` picks a digit in `HashMap` order; the model's contracts hold for any digit with count 1.
  - The guess loop walks a cell's candidates in `HashSet` order; the model's contracts hold for any order.
- `Solver.Solve`: requires that every candidate is a digit 1..9. Boards built by `new_with` always satisfy this. A candidate 0 would let the source's `solve` loop forever, because `set(0, …)` counts as progress without closing the cell.
- The test's variant of the guess loop that stops at the first success (src/main.rs:347-362): it differs from `Puzzle.GuessSingle` only in stopping early.

=== FILE: boards.dfy ===
/** The 9x9 board (`SudokuBoard`) and its single mutation primitive `set`,
    modelled as a pure function from board to board. */
module Boards {
  import opened Cells

  /** A row or column index; the source indexes a `Vec` with it and panics outside 0..8. */
  type Idx = i: int | 0 <= i < 9

  /** The 81 cells in row-major order: cell `(row, col)` is at `9 * row + col`.
      The source keeps a vector of nine row vectors; the flat layout is the same
      data. */
  type Board = seq<Cell>

  predicate Shaped(b: Board) {
    |b| == 81
  }

  /** `SudokuBoard::get`. */
  function At(b: Board, row: Idx, col: Idx): Cell
    requires Shaped(b)
  {
    b[9 * row + col]
  }

  /** First row (or column) of the 3x3 box that row (or column) `i` lies in. */
  function BoxStart(i: Idx): (s: int)
    ensures 0 <= s <= 6 && s <= i < s + 3
  {
    (i / 3) * 3
  }

  predicate SameBox(r: int, c: int, i: int, j: int) {
    r / 3 == i / 3 && c / 3 == j / 3
  }

  /** Two positions constrain each other: same row, same column or same box.
      Every position is its own peer. */
  predicate Peer(r: int, c: int, i: int, j: int) {
    r == i || c == j || SameBox(r, c, i, j)
  }

  lemma BoxStartIsSameBox(r: Idx, i: int)
    ensures BoxStart(r) <= i < BoxStart(r) + 3 <==> 0 <= i && i / 3 == r / 3
  {
  }

  /** Whether no cell other than `(row, col)` changed its value. */
  predicate ValuesKept(b: Board, b': Board, row: Idx, col: Idx)
    requires Shaped(b) && Shaped(b')
  {
    forall i: Idx, j: Idx {:trigger At(b', i, j)} :: (i != row || j != col) ==> At(b', i, j).val == At(b, i, j).val
  }

  /** A cell with `v` no longer among its candidates (`digits.remove(&v)`). */
  function Strip(c: Cell, v: nat): Cell
  {
    c.(digits := c.digits - {v})
  }

  /** Replaces one cell. */
  function Update(b: Board, i: Idx, j: Idx, cell: Cell): (b': Board)
    requires Shaped(b)
    ensures Shaped(b')
    ensures forall r: Idx, c: Idx {:trigger At(b', r, c)} ::
      At(b', r, c) == if r == i && c == j then cell else At(b, r, c)
  {
    b[9 * i + j := cell]
  }

  /** The loop that removes `v` from columns `lo..hi` of one row. */
  function DiscardInRow(b: Board, row: Idx, v: nat, lo: nat, hi: nat): (b': Board)
    requires Shaped(b) && lo <= hi <= 9
    ensures Shaped(b')
    ensures forall r: Idx, c: Idx {:trigger At(b', r, c)} ::
      At(b', r, c) == if r == row && lo <= c < hi then Strip(At(b, r, c), v) else At(b, r, c)
    decreases hi - lo
  {
    if lo == hi then b
    else DiscardInRow(Update(b, row, lo, Strip(At(b, row, lo), v)), row, v, lo + 1, hi)
  }

  /** The loop that removes `v` from rows `lo..hi` of one column. */
  function DiscardInColumn(b: Board, col: Idx, v: nat, lo: nat, hi: nat): (b': Board)
    requires Shaped(b) && lo <= hi <= 9
    ensures Shaped(b')
    ensures forall r: Idx, c: Idx {:trigger At(b', r, c)} ::
      At(b', r, c) == if c == col && lo <= r < hi then Strip(At(b, r, c), v) else At(b, r, c)
    decreases hi - lo
  {
    if lo == hi then b
    else DiscardInColumn(Update(b, lo, col, Strip(At(b, lo, col), v)), col, v, lo + 1, hi)
  }

  /** The nested loop over the box rows `rs + k` for `k` in `lo..3`, each one
      covering columns `cs..cs + 3`. */
  function DiscardInBox(b: Board, rs: nat, cs: nat, v: nat, lo: nat): (b': Board)
    requires Shaped(b) && rs <= 6 && cs <= 6 && lo <= 3
    ensures Shaped(b')
    ensures forall r: Idx, c: Idx {:trigger At(b', r, c)} ::
      At(b', r, c) == if rs + lo <= r < rs + 3 && cs <= c < cs + 3 then Strip(At(b, r, c), v) else At(b, r, c)
    decreases 3 - lo
  {
    if lo == 3 then b
    else DiscardInBox(DiscardInRow(b, rs + lo, v, cs, cs + 3), rs, cs, v, lo + 1)
  }

  /** Removes `v` from the candidates of every peer of `(row, col)`: the row
      loop, then the column loop, then the box loop. */
  function Spread(b: Board, v: nat, row: Idx, col: Idx): (b': Board)
    requires Shaped(b)
    ensures Shaped(b')
    ensures forall i: Idx, j: Idx {:trigger At(b', i, j)} ::
      At(b', i, j) == if Peer(row, col, i, j) then Strip(At(b, i, j), v) else At(b, i, j)
  {
    var inRow := DiscardInRow(b, row, v, 0, 9);
    var inColumn := DiscardInColumn(inRow, col, v, 0, 9);
    var inBox := DiscardInBox(inColumn, BoxStart(row), BoxStart(col), v, 0);
    SpreadCoversPeers(b, inRow, inColumn, inBox, v, row, col);
    inBox
  }

  lemma SpreadCoversPeers(b: Board, inRow: Board, inColumn: Board, inBox: Board, v: nat, row: Idx, col: Idx)
    requires Shaped(b) && Shaped(inRow) && Shaped(inColumn) && Shaped(inBox)
    requires forall r: Idx, c: Idx {:trigger At(inRow, r, c)} ::
      At(inRow, r, c) == if r == row then Strip(At(b, r, c), v) else At(b, r, c)
    requires forall r: Idx, c: Idx {:trigger At(inColumn, r, c)} ::
      At(inColumn, r, c) == if c == col then Strip(At(inRow, r, c), v) else At(inRow, r, c)
    requires forall r: Idx, c: Idx {:trigger At(inBox, r, c)} ::
      At(inBox, r, c) == if BoxStart(row) <= r < BoxStart(row) + 3 && BoxStart(col) <= c < BoxStart(col) + 3
                         then Strip(At(inColumn, r, c), v) else At(inColumn, r, c)
    ensures forall i: Idx, j: Idx {:trigger At(inBox, i, j)} ::
      At(inBox, i, j) == if Peer(row, col, i, j) then Strip(At(b, i, j), v) else At(b, i, j)
  {
    forall i: Idx, j: Idx
      ensures At(inBox, i, j) == if Peer(row, col, i, j) then Strip(At(b, i, j), v) else At(b, i, j)
    {
      BoxStartIsSameBox(row, i);
      BoxStartIsSameBox(col, j);
    }
  }

  /** The effect of `set`: `b'` is `b` with `v` written into `(row, col)`; a
      nonzero `v` also empties that cell's candidates and strips `v` from the
      candidates of every peer; every other cell is as it was. */
  predicate Placed(b: Board, v: nat, row: Idx, col: Idx, b': Board) {
    && Shaped(b) && Shaped(b')
    && At(b', row, col) == (if v == 0 then At(b, row, col).(val := 0) else Cell(v, {}))
    && forall i: Idx, j: Idx {:trigger At(b', i, j)} :: (i != row || j != col) ==>
         At(b', i, j) == if v != 0 && Peer(row, col, i, j) then Strip(At(b, i, j), v) else At(b, i, j)
  }

  /** `SudokuBoard::set`: writes `v` into `(row, col)`; a nonzero `v` also clears
      that cell's candidates and removes `v` from the candidates of its row, its
      column and its box. */
  function Set(b: Board, v: nat, row: Idx, col: Idx): (b': Board)
    requires Shaped(b)
    ensures Shaped(b')
    ensures Placed(b, v, row, col, b')
  {
    var written := Update(b, row, col, At(b, row, col).(val := v));
    if v == 0 then written
    else Spread(Update(written, row, col, At(written, row, col).(digits := {})), v, row, col)
  }

  /** What a placement promises: the value lands in the target cell; with a
      nonzero value the target's candidates are cleared and no peer keeps that
      value as a candidate; no other value changes, and no candidate set grows. */
  lemma PlacedEffect(b: Board, v: nat, row: Idx, col: Idx, b': Board)
    requires Placed(b, v, row, col, b')
    ensures At(b', row, col).val == v
    ensures ValuesKept(b, b', row, col)
    ensures v == 0 ==> At(b', row, col).digits == At(b, row, col).digits
    ensures v != 0 ==> At(b', row, col).digits == {}
    ensures v != 0 ==> forall i: Idx, j: Idx :: Peer(row, col, i, j) ==> v !in At(b', i, j).digits
    ensures forall i: Idx, j: Idx :: At(b', i, j).digits <= At(b, i, j).digits
  {
    forall i: Idx, j: Idx
      ensures At(b', i, j).digits <= At(b, i, j).digits
      ensures v != 0 && Peer(row, col, i, j) ==> v !in At(b', i, j).digits
    {
    }
  }

  /** `set` as seen by its callers. */
  lemma SetEffect(b: Board, v: nat, row: Idx, col: Idx)
    requires Shaped(b)
    ensures At(Set(b, v, row, col), row, col).val == v
    ensures ValuesKept(b, Set(b, v, row, col), row, col)
    ensures v == 0 ==> At(Set(b, v, row, col), row, col).digits == At(b, row, col).digits
    ensures v != 0 ==> At(Set(b, v, row, col), row, col).digits == {}
    ensures v != 0 ==> forall i: Idx, j: Idx :: Peer(row, col, i, j) ==> v !in At(Set(b, v, row, col), i, j).digits
    ensures forall i: Idx, j: Idx :: At(Set(b, v, row, col), i, j).digits <= At(b, i, j).digits
  {
    PlacedEffect(b, v, row, col, Set(b, v, row, col));
  }

  /** Shaped boards with equal cells are equal. */
  lemma BoardsEqual(a: Board, b: Board)
    requires Shaped(a) && Shaped(b)
    requires forall i: Idx, j: Idx :: At(a, i, j) == At(b, i, j)
    ensures a == b
  {
    forall k | 0 <= k < 81
      ensures a[k] == b[k]
    {
      assert At(a, k / 9, k % 9) == At(b, k / 9, k % 9);
    }
  }

  /** `Placed` pins down every cell, so the board it relates to `b` is the one
      `set` produces. */
  lemma PlacedIsSet(b: Board, v: nat, row: Idx, col: Idx, g: Board)
    requires Placed(b, v, row, col, g)
    ensures g == Set(b, v, row, col)
  {
    var s := Set(b, v, row, col);
    forall i: Idx, j: Idx
      ensures At(g, i, j) == At(s, i, j)
    {
    }
    BoardsEqual(g, s);
  }

  /** Two placements of the same value at the same cell end where one does. */
  lemma PlacedTwice(b: Board, v: nat, row: Idx, col: Idx, once: Board, twice: Board)
    requires Placed(b, v, row, col, once) && Placed(once, v, row, col, twice)
    ensures twice == once
  {
    forall i: Idx, j: Idx
      ensures At(twice, i, j) == At(once, i, j)
    {
      if i != row || j != col {
        assert At(twice, i, j).digits == At(once, i, j).digits;
      }
    }
    BoardsEqual(twice, once);
  }

  /** Setting the same value at the same cell twice is the same as setting it once. */
  lemma SetIdempotent(b: Board, v: nat, row: Idx, col: Idx)
    requires Shaped(b)
    ensures Set(Set(b, v, row, col), v, row, col) == Set(b, v, row, col)
  {
    PlacedTwice(b, v, row, col, Set(b, v, row, col), Set(Set(b, v, row, col), v, row, col));
  }
}

=== FILE: cells.dfy ===
/** One position of the Sudoku grid (`SudokuPos` in the source): a value, 0 while
    unknown, and the set of digits that are still possible there. */
module Cells {

  /** The digits a Sudoku cell can hold. */
  const Digits: set<nat> := {1, 2, 3, 4, 5, 6, 7, 8, 9}

  /** `val` is the placed value (0 = unknown); `digits` the remaining candidates.
      The source stores `val` as a `u32`; no arithmetic is ever done on it, so an
      unbounded `nat` loses nothing. */
  datatype Cell = Cell(val: nat, digits: set<nat>)
  {
    /** Comparison of a cell with a plain value looks at the value only. */
    predicate Holds(v: nat) {
      val == v
    }
  }

  lemma DigitsCount()
    ensures |Digits| == 9
  {
    assert Digits == {1, 2, 3, 4, 5, 6, 7, 8} + {9};
    assert |{1, 2, 3, 4, 5, 6, 7, 8}| == 8 by {
      assert {1, 2, 3, 4, 5, 6, 7, 8} == {1, 2, 3, 4, 5, 6, 7} + {8};
      assert |{1, 2, 3, 4, 5, 6, 7}| == 7 by {
        assert {1, 2, 3, 4, 5, 6, 7} == {1, 2, 3, 4, 5, 6} + {7};
      }
    }
  }

  /** A fresh cell: an unknown one may still become any digit, a given one has
      nothing left to choose. */
  function NewCell(v: nat): (c: Cell)
    ensures c.Holds(v)
    ensures c.digits <= Digits
    ensures c.val == 0 <==> |c.digits| == 9
    ensures c.val == 0 ==> forall d :: 1 <= d <= 9 ==> d in c.digits
    ensures c.val != 0 ==> c.digits == {}
  {
    DigitsCount();
    if v == 0 then Cell(v, Digits) else Cell(v, {})
  }
}

=== FILE: deduction.dfy ===
/** The deduction rules `solve` applies to one unknown cell: a naked single,
    then a hidden single in the row, the column and the box, each found by
    counting, per candidate digit, the cells that could still take it. */
module Deduction {
  import opened Cells
  import opened Boards

  datatype Option<T> = None | Some(value: T)

  datatype Rule = NakedSingle | RowSingle | ColumnSingle | BoxSingle

  /** One deduction: `digit` placed at `(row, col)` because of `rule`. */
  datatype Move = Move(row: Idx, col: Idx, digit: nat, rule: Rule)

  /** Whether `(i, j)` lies in the 3x3 box of `(row, col)`, in the form the box
      loop walks it: rows and columns from the box start, three of each. */
  predicate InBox(row: Idx, col: Idx, i: Idx, j: Idx) {
    BoxStart(row) <= i < BoxStart(row) + 3 && BoxStart(col) <= j < BoxStart(col) + 3
  }

  /** `d` is a candidate of `(row, col)` and of no other cell in its row. */
  predicate OnlyInRow(b: Board, row: Idx, col: Idx, d: nat)
    requires Shaped(b)
  {
    d in At(b, row, col).digits && forall j: Idx :: j != col ==> d !in At(b, row, j).digits
  }

  /** `d` is a candidate of `(row, col)` and of no other cell in its column. */
  predicate OnlyInColumn(b: Board, row: Idx, col: Idx, d: nat)
    requires Shaped(b)
  {
    d in At(b, row, col).digits && forall i: Idx :: i != row ==> d !in At(b, i, col).digits
  }

  /** `d` is a candidate of `(row, col)` and of no other unknown cell of its box;
      placed cells of the box are not looked at. */
  predicate OnlyInBox(b: Board, row: Idx, col: Idx, d: nat)
    requires Shaped(b)
  {
    && d in At(b, row, col).digits
    && forall i: Idx, j: Idx :: InBox(row, col, i, j) && (i != row || j != col) && At(b, i, j).val == 0 ==>
         d !in At(b, i, j).digits
  }

  predicate NoRowSingle(b: Board, row: Idx, col: Idx)
    requires Shaped(b)
  {
    forall d :: d in At(b, row, col).digits ==> !OnlyInRow(b, row, col, d)
  }

  predicate NoColumnSingle(b: Board, row: Idx, col: Idx)
    requires Shaped(b)
  {
    forall d :: d in At(b, row, col).digits ==> !OnlyInColumn(b, row, col, d)
  }

  predicate NoBoxSingle(b: Board, row: Idx, col: Idx)
    requires Shaped(b)
  {
    forall d :: d in At(b, row, col).digits ==> !OnlyInBox(b, row, col, d)
  }

  /** None of the four rules fires at `(row, col)`. */
  predicate Stuck(b: Board, row: Idx, col: Idx)
    requires Shaped(b)
  {
    |At(b, row, col).digits| != 1 && NoRowSingle(b, row, col) && NoColumnSingle(b, row, col) && NoBoxSingle(b, row, col)
  }

  /** `m` is the deduction `solve` makes at an unknown cell: the digit is one of
      its candidates, and the rule is the first one in the order naked single,
      row, column, box that fires for it. */
  predicate Justified(b: Board, m: Move)
    requires Shaped(b)
  {
    && At(b, m.row, m.col).val == 0
    && m.digit in At(b, m.row, m.col).digits
    && match m.rule
       case NakedSingle => At(b, m.row, m.col).digits == {m.digit}
       case RowSingle =>
         |At(b, m.row, m.col).digits| != 1 && OnlyInRow(b, m.row, m.col, m.digit)
       case ColumnSingle =>
         && |At(b, m.row, m.col).digits| != 1 && NoRowSingle(b, m.row, m.col)
         && OnlyInColumn(b, m.row, m.col, m.digit)
       case BoxSingle =>
         && |At(b, m.row, m.col).digits| != 1 && NoRowSingle(b, m.row, m.col)
         && NoColumnSingle(b, m.row, m.col) && OnlyInBox(b, m.row, m.col, m.digit)
  }

  /** Every candidate of the cell starts with a count of 1 (its own). */
  function Seed(own: set<nat>): (counts: map<nat, nat>)
    ensures counts.Keys == own
    ensures forall n :: n in counts ==> counts[n] == 1
  {
    map n | n in own :: 1
  }

  /** The inner `for n in pos.digits` loop: bump the count of every tracked digit
      that the visited cell also lists. */
  function Bump(counts: map<nat, nat>, seen: set<nat>): (r: map<nat, nat>)
    ensures r.Keys == counts.Keys
    ensures forall n :: n in r ==> r[n] == if n in seen then counts[n] + 1 else counts[n]
  {
    map n | n in counts :: if n in seen then counts[n] + 1 else counts[n]
  }

  /** Counts over the other eight cells of the row: a digit keeps the count 1
      exactly when it is a hidden single of the row. */
  method RowCounts(b: Board, row: Idx, col: Idx) returns (counts: map<nat, nat>)
    requires Shaped(b)
    ensures counts.Keys == At(b, row, col).digits
    ensures forall d :: d in counts ==> counts[d] >= 1 && (counts[d] == 1 <==> OnlyInRow(b, row, col, d))
  {
    counts := Seed(At(b, row, col).digits);
    for i := 0 to 9
      invariant counts.Keys == At(b, row, col).digits
      invariant forall d :: d in counts ==>
        counts[d] >= 1 && (counts[d] == 1 <==> forall j: Idx :: j < i && j != col ==> d !in At(b, row, j).digits)
    {
      if i != col {
        counts := Bump(counts, At(b, row, i).digits);
      }
    }
  }

  /** Counts over the other eight cells of the column. */
  method ColumnCounts(b: Board, row: Idx, col: Idx) returns (counts: map<nat, nat>)
    requires Shaped(b)
    ensures counts.Keys == At(b, row, col).digits
    ensures forall d :: d in counts ==> counts[d] >= 1 && (counts[d] == 1 <==> OnlyInColumn(b, row, col, d))
  {
    counts := Seed(At(b, row, col).digits);
    for i := 0 to 9
      invariant counts.Keys == At(b, row, col).digits
      invariant forall d :: d in counts ==>
        counts[d] >= 1 && (counts[d] == 1 <==> forall k: Idx :: k < i && k != row ==> d !in At(b, k, col).digits)
    {
      if i != row {
        counts := Bump(counts, At(b, i, col).digits);
      }
    }
  }

  /** No unknown box peer of `(row, col)` among the first `a` box rows, plus the
      first `c` cells of box row `a`, lists `d`. */
  predicate BoxClearBefore(b: Board, row: Idx, col: Idx, d: nat, a: int, c: int)
    requires Shaped(b)
  {
    forall i: Idx, j: Idx ::
      && InBox(row, col, i, j) && (i != row || j != col) && At(b, i, j).val == 0
      && (i < BoxStart(row) + a || (i == BoxStart(row) + a && j < BoxStart(col) + c))
      ==> d !in At(b, i, j).digits
  }

  lemma BoxClearStep(b: Board, row: Idx, col: Idx, d: nat, a: nat, c: nat)
    requires Shaped(b) && a < 3 && c < 3
    ensures var i, j := BoxStart(row) + a, BoxStart(col) + c;
      BoxClearBefore(b, row, col, d, a, c + 1)
      <==> BoxClearBefore(b, row, col, d, a, c) && ((i == row && j == col) || At(b, i, j).val != 0 || d !in At(b, i, j).digits)
  {
  }

  lemma BoxClearRowDone(b: Board, row: Idx, col: Idx, d: nat, a: int)
    requires Shaped(b)
    ensures BoxClearBefore(b, row, col, d, a, 3) <==> BoxClearBefore(b, row, col, d, a + 1, 0)
  {
  }

  /** Counts over the other unknown cells of the box, walked row by row from the
      box's first cell. */
  method BoxCounts(b: Board, row: Idx, col: Idx) returns (counts: map<nat, nat>)
    requires Shaped(b)
    ensures counts.Keys == At(b, row, col).digits
    ensures forall d :: d in counts ==> counts[d] >= 1 && (counts[d] == 1 <==> OnlyInBox(b, row, col, d))
  {
    counts := Seed(At(b, row, col).digits);
    for a := 0 to 3
      invariant counts.Keys == At(b, row, col).digits
      invariant forall d :: d in counts ==> counts[d] >= 1 && (counts[d] == 1 <==> BoxClearBefore(b, row, col, d, a, 0))
    {
      counts := BoxRowCounts(b, row, col, a, counts);
    }
  }

  /** The inner loop of the box count: box row `a`, three cells. */
  method BoxRowCounts(b: Board, row: Idx, col: Idx, a: nat, before: map<nat, nat>) returns (counts: map<nat, nat>)
    requires Shaped(b) && a < 3
    requires forall d :: d in before ==> before[d] >= 1 && (before[d] == 1 <==> BoxClearBefore(b, row, col, d, a, 0))
    ensures counts.Keys == before.Keys
    ensures forall d :: d in counts ==> counts[d] >= 1 && (counts[d] == 1 <==> BoxClearBefore(b, row, col, d, a + 1, 0))
  {
    var rs := BoxStart(row);
    var cs := BoxStart(col);
    counts := before;
    for c := 0 to 3
      invariant counts.Keys == before.Keys
      invariant forall d :: d in counts ==> counts[d] >= 1 && (counts[d] == 1 <==> BoxClearBefore(b, row, col, d, a, c))
    {
      var pos := At(b, rs + a, cs + c);
      forall d {
        BoxClearStep(b, row, col, d, a, c);
      }
      if (rs + a != row || cs + c != col) && pos.val == 0 {
        counts := Bump(counts, pos.digits);
      }
    }
    forall d {
      BoxClearRowDone(b, row, col, d, a);
    }
  }

  /** A digit whose count stayed at 1, if any: `count_and_set`'s search of the
      counts. Several may qualify; the source takes the first in hash order,
      here it is any of them. */
  method PickSingle(counts: map<nat, nat>) returns (found: Option<nat>)
    ensures found.Some? ==> found.value in counts && counts[found.value] == 1
    ensures found.None? <==> forall d :: d in counts ==> counts[d] != 1
  {
    if d :| d in counts && counts[d] == 1 {
      return Some(d);
    }
    return None;
  }

  method RowSingleAt(b: Board, row: Idx, col: Idx) returns (found: Option<nat>)
    requires Shaped(b)
    ensures found.Some? ==> OnlyInRow(b, row, col, found.value)
    ensures found.None? <==> NoRowSingle(b, row, col)
  {
    var counts := RowCounts(b, row, col);
    found := PickSingle(counts);
  }

  method ColumnSingleAt(b: Board, row: Idx, col: Idx) returns (found: Option<nat>)
    requires Shaped(b)
    ensures found.Some? ==> OnlyInColumn(b, row, col, found.value)
    ensures found.None? <==> NoColumnSingle(b, row, col)
  {
    var counts := ColumnCounts(b, row, col);
    found := PickSingle(counts);
  }

  method BoxSingleAt(b: Board, row: Idx, col: Idx) returns (found: Option<nat>)
    requires Shaped(b)
    ensures found.Some? ==> OnlyInBox(b, row, col, found.value)
    ensures found.None? <==> NoBoxSingle(b, row, col)
  {
    var counts := BoxCounts(b, row, col);
    found := PickSingle(counts);
  }

  /** The body of `solve` for one unknown cell: the move it makes, if any. */
  method Deduce(b: Board, row: Idx, col: Idx) returns (found: Option<Move>)
    requires Shaped(b) && At(b, row, col).val == 0
    ensures found.Some? ==> found.value.row == row && found.value.col == col && Justified(b, found.value)
    ensures found.None? <==> Stuck(b, row, col)
  {
    var digits := At(b, row, col).digits;
    if |digits| == 1 {
      var d :| d in digits;
      SingletonIs(digits, d);
      return Some(Move(row, col, d, NakedSingle));
    }
    var inRow := RowSingleAt(b, row, col);
    if inRow.Some? {
      return Some(Move(row, col, inRow.value, RowSingle));
    }
    var inColumn := ColumnSingleAt(b, row, col);
    if inColumn.Some? {
      return Some(Move(row, col, inColumn.value, ColumnSingle));
    }
    var inBox := BoxSingleAt(b, row, col);
    if inBox.Some? {
      return Some(Move(row, col, inBox.value, BoxSingle));
    }
    return None;
  }

  lemma SingletonIs(s: set<nat>, d: nat)
    requires |s| == 1 && d in s
    ensures s == {d}
  {
    assert s == (s - {d}) + {d};
  }
}

=== FILE: forcing.dfy ===
/** Why the deduction rules are sound: in any solution that agrees with a board,
    each rule's digit is the one the cell holds. */
module Forcing {
  import opened Cells
  import opened Boards
  import opened Invariants
  import opened Deduction

  /** `s` solves the puzzle and agrees with everything `b` has settled: placed
      values are kept and each unknown cell holds one of its candidates. */
  predicate Completes(b: Board, s: Board)
    requires Shaped(b)
  {
    && Solved(s)
    && forall i: Idx, j: Idx ::
         if At(b, i, j).val != 0 then At(s, i, j).val == At(b, i, j).val else At(s, i, j).val in At(b, i, j).digits
  }

  /** Pigeonhole: pairwise distinct values drawn from `s` number at most `|s|`. */
  lemma {:induction false} DistinctBound(vals: seq<nat>, s: set<nat>)
    requires forall k :: 0 <= k < |vals| ==> vals[k] in s
    requires forall k, l :: 0 <= k < l < |vals| ==> vals[k] != vals[l]
    ensures |vals| <= |s|
    decreases |vals|
  {
    if vals != [] {
      var n := |vals| - 1;
      var rest := vals[..n];
      forall k | 0 <= k < |rest|
        ensures rest[k] in s - {vals[n]}
      {
        assert rest[k] == vals[k];
      }
      DistinctBound(rest, s - {vals[n]});
    }
  }

  /** Nine distinct digits are all the digits. */
  lemma EveryDigitPresent(vals: seq<nat>, d: nat)
    requires |vals| == 9 && d in Digits
    requires forall k :: 0 <= k < 9 ==> vals[k] in Digits
    requires forall k, l :: 0 <= k < l < 9 ==> vals[k] != vals[l]
    ensures exists k :: 0 <= k < 9 && vals[k] == d
  {
    if forall k :: 0 <= k < 9 ==> vals[k] != d {
      DigitsCount();
      DistinctBound(vals, Digits - {d});
      assert false;
    }
  }

  lemma RowHas(s: Board, row: Idx, d: nat)
    requires Solved(s) && d in Digits
    ensures exists j: Idx :: At(s, row, j).val == d
  {
    var vals := seq(9, j => if 0 <= j < 9 then At(s, row, j).val else 0);
    forall k, l | 0 <= k < l < 9
      ensures vals[k] != vals[l]
    {
      assert Peer(row, k, row, l);
    }
    EveryDigitPresent(vals, d);
    var k :| 0 <= k < 9 && vals[k] == d;
    assert At(s, row, k).val == d;
  }

  lemma ColumnHas(s: Board, col: Idx, d: nat)
    requires Solved(s) && d in Digits
    ensures exists i: Idx :: At(s, i, col).val == d
  {
    var vals := seq(9, i => if 0 <= i < 9 then At(s, i, col).val else 0);
    forall k, l | 0 <= k < l < 9
      ensures vals[k] != vals[l]
    {
      assert Peer(k, col, l, col);
    }
    EveryDigitPresent(vals, d);
    var k :| 0 <= k < 9 && vals[k] == d;
    assert At(s, k, col).val == d;
  }

  /** The cell of the box of `(row, col)` visited `k`-th, row by row. */
  function BoxCell(row: Idx, col: Idx, k: int): (p: (Idx, Idx))
    requires 0 <= k < 9
    ensures InBox(row, col, p.0, p.1)
  {
    (BoxStart(row) + k / 3, BoxStart(col) + k % 3)
  }

  lemma BoxCellsArePeers(row: Idx, col: Idx, k: int, l: int)
    requires 0 <= k < l < 9
    ensures var (i, j), (p, q) := BoxCell(row, col, k), BoxCell(row, col, l);
      Peer(i, j, p, q) && (i != p || j != q)
  {
    var (i, j) := BoxCell(row, col, k);
    var (p, q) := BoxCell(row, col, l);
    BoxStartIsSameBox(row, i);
    BoxStartIsSameBox(row, p);
    BoxStartIsSameBox(col, j);
    BoxStartIsSameBox(col, q);
    assert k == 3 * (k / 3) + k % 3 && l == 3 * (l / 3) + l % 3;
  }

  /** The values of the box of `(row, col)` in the order the box loop visits them. */
  function BoxValues(s: Board, row: Idx, col: Idx): (vals: seq<nat>)
    requires Shaped(s)
    ensures |vals| == 9
    ensures forall k :: 0 <= k < 9 ==> vals[k] == At(s, BoxCell(row, col, k).0, BoxCell(row, col, k).1).val
  {
    seq(9, k => if 0 <= k < 9 then At(s, BoxCell(row, col, k).0, BoxCell(row, col, k).1).val else 0)
  }

  lemma BoxValueIsDigit(s: Board, row: Idx, col: Idx, k: int)
    requires Solved(s) && 0 <= k < 9
    ensures BoxValues(s, row, col)[k] in Digits
  {
    var (i, j) := BoxCell(row, col, k);
    assert BoxValues(s, row, col)[k] == At(s, i, j).val;
    assert 1 <= At(s, i, j).val <= 9;
  }

  lemma BoxValuesDiffer(s: Board, row: Idx, col: Idx, k: int, l: int)
    requires Solved(s) && 0 <= k < l < 9
    ensures BoxValues(s, row, col)[k] != BoxValues(s, row, col)[l]
  {
    BoxCellsArePeers(row, col, k, l);
    var (i, j) := BoxCell(row, col, k);
    var (p, q) := BoxCell(row, col, l);
    assert At(s, p, q).val != At(s, i, j).val;
  }

  /** The box of `(row, col)` in a solution holds nine distinct digits. */
  lemma BoxValuesDistinct(s: Board, row: Idx, col: Idx)
    requires Solved(s)
    ensures forall k :: 0 <= k < 9 ==> BoxValues(s, row, col)[k] in Digits
    ensures forall k, l :: 0 <= k < l < 9 ==> BoxValues(s, row, col)[k] != BoxValues(s, row, col)[l]
  {
    forall k | 0 <= k < 9
      ensures BoxValues(s, row, col)[k] in Digits
    {
      BoxValueIsDigit(s, row, col, k);
    }
    forall k, l | 0 <= k < l < 9
      ensures BoxValues(s, row, col)[k] != BoxValues(s, row, col)[l]
    {
      BoxValuesDiffer(s, row, col, k, l);
    }
  }

  lemma BoxHas(s: Board, row: Idx, col: Idx, d: nat)
    requires Solved(s) && d in Digits
    ensures exists i: Idx, j: Idx :: InBox(row, col, i, j) && At(s, i, j).val == d
  {
    var vals := BoxValues(s, row, col);
    BoxValuesDistinct(s, row, col);
    EveryDigitPresent(vals, d);
    var k :| 0 <= k < 9 && vals[k] == d;
    var (i, j) := BoxCell(row, col, k);
    assert At(s, i, j).val == d;
  }

  /** A cell other than `(row, col)` that holds `d` in a completion, and is a peer
      of `(row, col)` on a board obeying the rule, rules out `d` there unless it
      is an unknown cell that still lists `d`. */
  lemma PeerHoldingRulesOut(b: Board, s: Board, row: Idx, col: Idx, i: Idx, j: Idx, d: nat)
    requires Consistent(b) && Completes(b, s)
    requires Peer(i, j, row, col) && (i != row || j != col) && At(s, i, j).val == d
    requires d in At(b, row, col).digits
    ensures At(b, i, j).val == 0 && d in At(b, i, j).digits
  {
  }

  /** Soundness of the rules: a justified move names the digit that every
      completion puts in that cell. */
  lemma JustifiedForced(b: Board, m: Move, s: Board)
    requires Consistent(b) && Justified(b, m) && Completes(b, s)
    ensures At(s, m.row, m.col).val == m.digit
  {
    var row, col, d := m.row, m.col, m.digit;
    assert d in Digits;
    match m.rule
    case NakedSingle =>
    case RowSingle =>
      RowHas(s, row, d);
      var j: Idx :| At(s, row, j).val == d;
      if j != col {
        PeerHoldingRulesOut(b, s, row, col, row, j, d);
      }
    case ColumnSingle =>
      ColumnHas(s, col, d);
      var i: Idx :| At(s, i, col).val == d;
      if i != row {
        PeerHoldingRulesOut(b, s, row, col, i, col, d);
      }
    case BoxSingle =>
      BoxHas(s, row, col, d);
      var i: Idx, j: Idx :| InBox(row, col, i, j) && At(s, i, j).val == d;
      if i != row || j != col {
        BoxStartIsSameBox(row, i);
        BoxStartIsSameBox(col, j);
        PeerHoldingRulesOut(b, s, row, col, i, j, d);
      }
  }

  /** Placing the digit a completion holds keeps it a completion. */
  lemma PlacedKeepsCompletion(b: Board, d: nat, row: Idx, col: Idx, b': Board, s: Board)
    requires Placed(b, d, row, col, b') && Completes(b, s)
    requires At(b, row, col).val == 0 && d != 0 && At(s, row, col).val == d
    ensures Completes(b', s)
  {
    PlacedEffect(b, d, row, col, b');
    forall i: Idx, j: Idx | At(b', i, j).val == 0
      ensures At(s, i, j).val in At(b', i, j).digits
    {
      if Peer(row, col, i, j) {
        assert At(s, i, j).val != d;
      }
    }
  }

  /** A justified move on a board that obeys the rule keeps every completion. */
  lemma MoveKeepsCompletion(b: Board, m: Move, b': Board, s: Board)
    requires Consistent(b) && Justified(b, m) && Placed(b, m.digit, m.row, m.col, b') && Completes(b, s)
    ensures Completes(b', s)
  {
    JustifiedForced(b, m, s);
    assert m.digit in Digits;
    PlacedKeepsCompletion(b, m.digit, m.row, m.col, b', s);
  }

  /** A board with a dead cell has no completion. */
  lemma DeadCellNoCompletion(b: Board, row: Idx, col: Idx, s: Board)
    requires Shaped(b) && At(b, row, col).val == 0 && At(b, row, col).digits == {}
    ensures !Completes(b, s)
  {
  }

  /** A full board's completion holds its values everywhere. */
  lemma FullCompletionIsBoard(b: Board, s: Board)
    requires Shaped(b) && Full(b) && Completes(b, s)
    ensures forall i: Idx, j: Idx :: At(s, i, j).val == At(b, i, j).val
  {
  }
}

=== FILE: invariants.dfy ===
/** Properties of boards that `set` keeps, and the relation between a board and
    a later state of it. */
module Invariants {
  import opened Cells
  import opened Boards

  /** Every board built through the public operations has this shape: candidates
      are always drawn from 1..9. */
  predicate WellFormed(b: Board) {
    Shaped(b) && forall i: Idx, j: Idx :: At(b, i, j).digits <= Digits
  }

  /** The Sudoku rule on a partial board: values are digits, a placed cell has no
      candidates, no two peers hold the same value, and no cell lists the value of
      one of its placed peers as a candidate. */
  predicate Consistent(b: Board) {
    && WellFormed(b)
    && (forall i: Idx, j: Idx :: At(b, i, j).val <= 9 && (At(b, i, j).val != 0 ==> At(b, i, j).digits == {}))
    && (forall i: Idx, j: Idx, k: Idx, l: Idx ::
          Peer(i, j, k, l) && (i != k || j != l) && At(b, i, j).val != 0 ==>
            At(b, k, l).val != At(b, i, j).val && At(b, i, j).val !in At(b, k, l).digits)
  }

  predicate Full(b: Board)
    requires Shaped(b)
  {
    forall i: Idx, j: Idx :: At(b, i, j).val != 0
  }

  /** A completed grid that obeys the row, column and box rule. */
  predicate Solved(b: Board) {
    && Shaped(b)
    && (forall i: Idx, j: Idx :: 1 <= At(b, i, j).val <= 9)
    && (forall i: Idx, j: Idx, k: Idx, l: Idx ::
          Peer(i, j, k, l) && (i != k || j != l) ==> At(b, k, l).val != At(b, i, j).val)
  }

  /** The positions still unknown. */
  function Open(b: Board): set<(Idx, Idx)>
    requires Shaped(b)
  {
    set i: Idx, j: Idx | At(b, i, j).val == 0 :: (i, j)
  }

  /** `b` is a later state of `a` under deduction: placed values stay, a newly
      placed value was a candidate in `a`, and candidate sets only shrink. */
  predicate Refines(a: Board, b: Board)
    requires Shaped(a) && Shaped(b)
  {
    forall i: Idx, j: Idx ::
      && (At(a, i, j).val != 0 ==> At(b, i, j).val == At(a, i, j).val)
      && (At(a, i, j).val == 0 && At(b, i, j).val != 0 ==> At(b, i, j).val in At(a, i, j).digits)
      && At(b, i, j).digits <= At(a, i, j).digits
  }

  lemma PlacedKeepsWellFormed(b: Board, v: nat, row: Idx, col: Idx, b': Board)
    requires WellFormed(b) && Placed(b, v, row, col, b')
    ensures WellFormed(b')
  {
    PlacedEffect(b, v, row, col, b');
  }

  lemma SetKeepsWellFormed(b: Board, v: nat, row: Idx, col: Idx)
    requires WellFormed(b)
    ensures WellFormed(Set(b, v, row, col))
  {
    PlacedKeepsWellFormed(b, v, row, col, Set(b, v, row, col));
  }

  lemma PlacedRefines(b: Board, d: nat, row: Idx, col: Idx, b': Board)
    requires Placed(b, d, row, col, b') && At(b, row, col).val == 0 && d in At(b, row, col).digits
    ensures Refines(b, b')
  {
    PlacedEffect(b, d, row, col, b');
  }

  /** Placing a candidate of an unknown cell is a refinement step. */
  lemma AssignRefines(b: Board, d: nat, row: Idx, col: Idx)
    requires Shaped(b) && At(b, row, col).val == 0 && d in At(b, row, col).digits
    ensures Refines(b, Set(b, d, row, col))
  {
    PlacedRefines(b, d, row, col, Set(b, d, row, col));
  }

  lemma RefinesReflexive(a: Board)
    requires Shaped(a)
    ensures Refines(a, a)
  {
  }

  lemma RefinesTransitive(a: Board, b: Board, c: Board)
    requires Shaped(a) && Shaped(b) && Shaped(c)
    requires Refines(a, b) && Refines(b, c)
    ensures Refines(a, c)
  {
    forall i: Idx, j: Idx
      ensures At(a, i, j).val == 0 && At(c, i, j).val != 0 ==> At(c, i, j).val in At(a, i, j).digits
    {
      if At(a, i, j).val == 0 && At(c, i, j).val != 0 && At(b, i, j).val == 0 {
        assert At(c, i, j).val in At(b, i, j).digits;
      }
    }
  }

  /** Placing a nonzero value in an unknown cell closes exactly that position. */
  lemma PlacedCloses(b: Board, d: nat, row: Idx, col: Idx, b': Board)
    requires Placed(b, d, row, col, b') && At(b, row, col).val == 0 && d != 0
    ensures Open(b') == Open(b) - {(row, col)}
  {
    PlacedEffect(b, d, row, col, b');
    forall p | p in Open(b')
      ensures p in Open(b) - {(row, col)}
    {
      var (i, j) := p;
      assert At(b', i, j).val == 0;
    }
    forall p | p in Open(b) - {(row, col)}
      ensures p in Open(b')
    {
      var (i, j) := p;
      assert At(b, i, j).val == 0;
    }
  }

  lemma AssignCloses(b: Board, d: nat, row: Idx, col: Idx)
    requires Shaped(b) && At(b, row, col).val == 0 && d != 0
    ensures Open(Set(b, d, row, col)) == Open(b) - {(row, col)}
  {
    PlacedCloses(b, d, row, col, Set(b, d, row, col));
  }

  /** Placing a candidate of an unknown cell keeps a consistent board consistent. */
  lemma PlacedKeepsConsistent(b: Board, d: nat, row: Idx, col: Idx, b': Board)
    requires Placed(b, d, row, col, b')
    requires Consistent(b) && At(b, row, col).val == 0 && d in At(b, row, col).digits
    ensures Consistent(b')
  {
    PlacedEffect(b, d, row, col, b');
    forall i: Idx, j: Idx
      ensures At(b', i, j).val <= 9 && (At(b', i, j).val != 0 ==> At(b', i, j).digits == {})
    {
    }
    forall i: Idx, j: Idx, k: Idx, l: Idx | Peer(i, j, k, l) && (i != k || j != l) && At(b', i, j).val != 0
      ensures At(b', k, l).val != At(b', i, j).val && At(b', i, j).val !in At(b', k, l).digits
    {
      if i == row && j == col {
        if At(b, k, l).val != 0 {
          assert Peer(k, l, row, col);
          assert At(b, k, l).val !in At(b, row, col).digits;
        }
      } else if k == row && l == col {
        assert At(b, i, j).val !in At(b, row, col).digits;
      } else {
        assert At(b', k, l).digits <= At(b, k, l).digits;
      }
    }
  }

  lemma AssignKeepsConsistent(b: Board, d: nat, row: Idx, col: Idx)
    requires Consistent(b) && At(b, row, col).val == 0 && d in At(b, row, col).digits
    ensures Consistent(Set(b, d, row, col))
  {
    PlacedKeepsConsistent(b, d, row, col, Set(b, d, row, col));
  }

  /** A consistent board with no unknown cell is a solution. */
  lemma FullConsistentIsSolved(b: Board)
    requires Consistent(b) && Full(b)
    ensures Solved(b)
  {
  }
}

=== FILE: loading.dfy ===
/** Building a board from a grid of givens (`SudokuBoard::empty`,
    `SudokuBoard::new_with`) and comparing a board with a grid
    (`PartialEq<[[u32; 9]; 9]>`). */
module Loading {
  import opened Cells
  import opened Boards
  import opened Invariants

  /** A 9x9 grid of numbers, 0 for unknown, in row-major order. The source takes a
      `[[u32; 9]; 9]`. */
  type Grid = seq<nat>

  function Given(grid: Grid, row: Idx, col: Idx): nat
    requires |grid| == 81
  {
    grid[9 * row + col]
  }

  /** Some peer of `(i, j)` among the first `k` cells (row-major) is given as `d`. */
  ghost predicate GivenBefore(grid: Grid, i: Idx, j: Idx, d: nat, k: int)
    requires |grid| == 81
  {
    exists p: Idx, q: Idx :: 9 * p + q < k && Peer(i, j, p, q) && Given(grid, p, q) == d
  }

  /** The digits still open at `(i, j)` once the first `k` givens are placed. */
  ghost function Remaining(grid: Grid, i: Idx, j: Idx, k: int): set<nat>
    requires |grid| == 81
  {
    set d | d in Digits && !GivenBefore(grid, i, j, d, k)
  }

  /** The board `new_with` has built after its first `k` calls to `set`: those
      cells hold their givens, the rest are still unknown; a placed given has no
      candidates, every other cell has every digit that no placed peer holds. */
  ghost predicate Loaded(grid: Grid, b: Board, k: int)
    requires |grid| == 81
  {
    && Shaped(b)
    && forall i: Idx, j: Idx ::
         && At(b, i, j).val == (if 9 * i + j < k then Given(grid, i, j) else 0)
         && At(b, i, j).digits == (if 9 * i + j < k && Given(grid, i, j) != 0 then {} else Remaining(grid, i, j, k))
  }

  /** A grid whose givens are digits and break no row, column or box rule. */
  ghost predicate ValidGivens(grid: Grid) {
    && |grid| == 81
    && (forall i: Idx, j: Idx :: Given(grid, i, j) <= 9)
    && (forall i: Idx, j: Idx, k: Idx, l: Idx ::
          Peer(i, j, k, l) && (i != k || j != l) && Given(grid, i, j) != 0 ==> Given(grid, k, l) != Given(grid, i, j))
  }

  lemma NothingGivenBeforeStart(grid: Grid, i: Idx, j: Idx)
    requires |grid| == 81
    ensures Remaining(grid, i, j, 0) == Digits
  {
  }

  /** `SudokuBoard::empty`: nine rows of nine unknown cells. It is the state
      `new_with` starts from, whatever the grid. */
  function Empty(): (e: Board)
    ensures WellFormed(e)
    ensures forall grid: Grid :: |grid| == 81 ==> Loaded(grid, e, 0)
  {
    var e := seq(81, _ => NewCell(0));
    EmptyIsStart(e);
    e
  }

  lemma EmptyIsStart(e: Board)
    requires e == seq(81, _ => NewCell(0))
    ensures WellFormed(e)
    ensures forall grid: Grid :: |grid| == 81 ==> Loaded(grid, e, 0)
  {
    forall grid: Grid | |grid| == 81
      ensures Loaded(grid, e, 0)
    {
      forall i: Idx, j: Idx
        ensures At(e, i, j).digits == Remaining(grid, i, j, 0)
      {
        NothingGivenBeforeStart(grid, i, j);
      }
    }
  }

  /** Moving from the first `k` givens to the first `k + 1` adds exactly the
      given at position `k` to what the peers of `(i, j)` have seen. */
  lemma GivenBeforeStep(grid: Grid, i: Idx, j: Idx, d: nat, row: Idx, col: Idx)
    requires |grid| == 81
    ensures GivenBefore(grid, i, j, d, 9 * row + col + 1)
        <==> GivenBefore(grid, i, j, d, 9 * row + col) || (Peer(i, j, row, col) && Given(grid, row, col) == d)
  {
    var k := 9 * row + col;
    if GivenBefore(grid, i, j, d, k + 1) && !GivenBefore(grid, i, j, d, k) {
      var p: Idx, q: Idx :| 9 * p + q < k + 1 && Peer(i, j, p, q) && Given(grid, p, q) == d;
      assert 9 * p + q == k;
      assert p == row && q == col;
    }
    if Peer(i, j, row, col) && Given(grid, row, col) == d {
      assert 9 * row + col < k + 1;
    }
  }

  lemma RemainingStep(grid: Grid, i: Idx, j: Idx, row: Idx, col: Idx, k: int)
    requires |grid| == 81 && k == 9 * row + col
    ensures Remaining(grid, i, j, k + 1)
         == Remaining(grid, i, j, k)
            - (if Peer(i, j, row, col) && Given(grid, row, col) != 0 then {Given(grid, row, col)} else {})
  {
    var before := Remaining(grid, i, j, k);
    var after := Remaining(grid, i, j, k + 1);
    var taken: set<nat> := if Peer(i, j, row, col) && Given(grid, row, col) != 0 then {Given(grid, row, col)} else {};
    forall d
      ensures d in after <==> d in before - taken
    {
      GivenBeforeStep(grid, i, j, d, row, col);
    }
  }

  /** One iteration of `new_with`: setting the next given extends the loaded prefix. */
  lemma {:induction false} LoadStep(grid: Grid, b: Board, row: Idx, col: Idx, b': Board)
    requires |grid| == 81
    requires Loaded(grid, b, 9 * row + col)
    requires Placed(b, Given(grid, row, col), row, col, b')
    ensures Loaded(grid, b', 9 * row + col + 1)
  {
    var k := 9 * row + col;
    var v := Given(grid, row, col);
    forall i: Idx, j: Idx
      ensures At(b', i, j).val == (if 9 * i + j < k + 1 then Given(grid, i, j) else 0)
      ensures At(b', i, j).digits
           == (if 9 * i + j < k + 1 && Given(grid, i, j) != 0 then {} else Remaining(grid, i, j, k + 1))
    {
      RemainingStep(grid, i, j, row, col, k);
      if i == row && j == col {
        assert 9 * i + j == k;
      } else {
        assert 9 * i + j != k;
        assert Peer(i, j, row, col) == Peer(row, col, i, j);
      }
    }
  }

  /** `SudokuBoard::new_with`: starts from the empty board and calls `set` on
      every cell in row-major order with its given. */
  method NewWith(grid: Grid) returns (b: Board)
    requires |grid| == 81
    ensures Loaded(grid, b, 81)
    ensures WellFormed(b)
  {
    b := Empty();
    for row := 0 to 9
      invariant Loaded(grid, b, 9 * row)
    {
      for col := 0 to 9
        invariant Loaded(grid, b, 9 * row + col)
      {
        b := LoadCell(grid, b, row, col);
      }
    }
    LoadedIsWellFormed(grid, b);
  }

  /** The body of the `new_with` loop. */
  method LoadCell(grid: Grid, b: Board, row: Idx, col: Idx) returns (b': Board)
    requires |grid| == 81 && Loaded(grid, b, 9 * row + col)
    ensures Loaded(grid, b', 9 * row + col + 1)
  {
    b' := Set(b, Given(grid, row, col), row, col);
    LoadStep(grid, b, row, col, b');
  }

  lemma LoadedIsWellFormed(grid: Grid, b: Board)
    requires |grid| == 81 && Loaded(grid, b, 81)
    ensures WellFormed(b)
  {
    forall i: Idx, j: Idx
      ensures At(b, i, j).digits <= Digits
    {
    }
  }

  /** A loaded board obeys the Sudoku rule exactly when its givens do. */
  lemma LoadedConsistent(grid: Grid, b: Board)
    requires |grid| == 81 && Loaded(grid, b, 81)
    ensures Consistent(b) <==> ValidGivens(grid)
  {
    LoadedIsWellFormed(grid, b);
    if ValidGivens(grid) {
      forall i: Idx, j: Idx, k: Idx, l: Idx | Peer(i, j, k, l) && (i != k || j != l) && At(b, i, j).val != 0
        ensures At(b, k, l).val != At(b, i, j).val && At(b, i, j).val !in At(b, k, l).digits
      {
        var v := Given(grid, i, j);
        if Given(grid, k, l) == 0 {
          assert Peer(k, l, i, j);
          assert 9 * i + j < 81;
          assert GivenBefore(grid, k, l, v, 81);
        }
      }
    }
    if Consistent(b) {
      forall i: Idx, j: Idx, k: Idx, l: Idx | Peer(i, j, k, l) && (i != k || j != l) && Given(grid, i, j) != 0
        ensures Given(grid, k, l) != Given(grid, i, j)
      {
        assert At(b, i, j).val == Given(grid, i, j);
      }
    }
  }

  /** Board-to-grid equality (`impl PartialEq<[[u32; 9]; 9]> for SudokuBoard`):
      compares values only, cell by cell, and stops at the first difference. */
  method SameValues(b: Board, grid: Grid) returns (eq: bool)
    requires Shaped(b) && |grid| == 81
    ensures eq <==> forall i: Idx, j: Idx :: At(b, i, j).Holds(Given(grid, i, j))
  {
    for row := 0 to 9
      invariant forall i: Idx, j: Idx :: i < row ==> At(b, i, j).Holds(Given(grid, i, j))
    {
      for col := 0 to 9
        invariant forall i: Idx, j: Idx :: (i < row || (i == row && j < col)) ==> At(b, i, j).Holds(Given(grid, i, j))
      {
        if !At(b, row, col).Holds(Given(grid, row, col)) {
          return false;
        }
      }
    }
    return true;
  }
}

=== FILE: puzzle.dfy ===
/** The program's driver: load the givens, run `solve`, then try every single
    guess on the board it leaves behind and keep the guesses `solve` finishes. */
module Puzzle {
  import opened Cells
  import opened Boards
  import opened Invariants
  import opened Loading
  import opened Deduction
  import opened Forcing
  import opened Solver

  /** `s` is a solution of the puzzle `grid`: a completed grid obeying the rule
      that keeps every given. */
  ghost predicate SolutionOf(grid: Grid, s: Board)
    requires |grid| == 81
  {
    Solved(s) && forall i: Idx, j: Idx :: Given(grid, i, j) != 0 ==> At(s, i, j).val == Given(grid, i, j)
  }

  /** The completions of a freshly loaded board are exactly the solutions of the
      puzzle, when the givens obey the rule. */
  lemma LoadedCompletions(grid: Grid, b: Board, s: Board)
    requires |grid| == 81 && Loaded(grid, b, 81) && ValidGivens(grid)
    ensures Completes(b, s) <==> SolutionOf(grid, s)
  {
    if SolutionOf(grid, s) {
      forall i: Idx, j: Idx | At(b, i, j).val == 0
        ensures At(s, i, j).val in At(b, i, j).digits
      {
        var d := At(s, i, j).val;
        forall p: Idx, q: Idx | 9 * p + q < 81 && Peer(i, j, p, q)
          ensures Given(grid, p, q) != d
        {
          if Given(grid, p, q) != 0 {
            assert At(s, p, q).val == Given(grid, p, q);
          }
        }
        assert d in Remaining(grid, i, j, 81);
      }
    }
  }

  /** A full board that refines `b` and obeys the rule completes `b`. */
  lemma SolvedRefinementCompletes(b: Board, s: Board)
    requires Shaped(b) && Solved(s) && Refines(b, s)
    ensures Completes(b, s)
  {
  }

  /** `r` is a board `solve` can leave behind when started from `start`: it is
      reached from `start` by justified moves, and unless it is full it has a dead
      cell or no rule fires anywhere on it. */
  ghost predicate SolveLeaves(start: Board, r: Board) {
    && Shaped(r)
    && (exists steps :: Follows(start, steps, r))
    && (!Full(r) ==> Exhausted(r) || Stalled(r))
  }

  /** `r` is what `solve` can leave from `b` with `d` set at `(row, col)`. The
      board after the `set` is named by its cellwise effect `Placed`. */
  ghost predicate GuessLeaves(b: Board, row: Idx, col: Idx, d: nat, r: Board)
    requires Shaped(b)
  {
    exists g :: Placed(b, d, row, col, g) && SolveLeaves(g, r)
  }

  /** One guess: a copy of `b` with `d` set at `(row, col)`, then `solve`.
      `guessed` is the copy after the `set` (the one board `Placed` allows, see
      `Boards.PlacedIsSet`) and `steps` are the moves that `solve` made on it. */
  method TryGuess(b: Board, row: Idx, col: Idx, d: nat) returns (ok: bool, b': Board, ghost guessed: Board, ghost steps: seq<Move>)
    requires WellFormed(b) && At(b, row, col).val == 0 && d in At(b, row, col).digits
    ensures Placed(b, d, row, col, guessed) && Follows(guessed, steps, b')
    ensures !ok ==> Exhausted(b') || Stalled(b')
    ensures WellFormed(b') && Refines(b, b') && At(b', row, col).val == d
    ensures ok <==> Full(b')
    ensures ok && Consistent(b) ==> Completes(b, b')
    ensures Guessed(b, row, col, d, b')
  {
    var copy := Set(b, d, row, col);
    guessed := copy;
    SetKeepsWellFormed(b, d, row, col);
    AssignRefines(b, d, row, col);
    SetEffect(b, d, row, col);
    if Consistent(b) {
      AssignKeepsConsistent(b, d, row, col);
    }
    ok, b', steps := Solve(copy);
    RefinesTransitive(b, guessed, b');
    if ok && Consistent(b) {
      SolvedRefinementCompletes(b, b');
    }
  }

  /** `r` is the board one guess of `d` at `(row, col)` of `b` left behind: what
      `solve` leaves from `b` with `d` set there. It refines `b`, holds `d` there,
      and when full it solves a valid `b`. */
  ghost predicate Guessed(b: Board, row: Idx, col: Idx, d: nat, r: Board)
    requires Shaped(b)
  {
    && GuessLeaves(b, row, col, d, r)
    && WellFormed(r) && Refines(b, r) && At(r, row, col).val == d
    && (Consistent(b) && Full(r) ==> Completes(b, r))
  }

  /** The guesses at the unknown cell `(row, col)`: `tried` maps each candidate
      to the board its guess left behind, and `solutions` keeps exactly the full
      ones. */
  ghost predicate CellRecord(b: Board, row: Idx, col: Idx, tried: map<nat, Board>, solutions: seq<Board>)
    requires Shaped(b)
  {
    tried.Keys == At(b, row, col).digits && CellResults(b, row, col, tried, solutions) && CellKept(tried, solutions)
  }

  /** Every guess in `tried` left its board behind as `Guessed` says, and that
      board is kept exactly when it is full. */
  ghost predicate CellResults(b: Board, row: Idx, col: Idx, tried: map<nat, Board>, solutions: seq<Board>)
    requires Shaped(b)
  {
    forall d :: d in tried ==> Guessed(b, row, col, d, tried[d]) && (Full(tried[d]) <==> tried[d] in solutions)
  }

  /** Every kept board is the result of a guess in `tried`. */
  predicate CellKept(tried: map<nat, Board>, solutions: seq<Board>) {
    forall k :: 0 <= k < |solutions| ==> TriedBoard(tried, solutions[k])
  }

  /** `r` is the board one of the guesses in `tried` left behind. */
  predicate TriedBoard(tried: map<nat, Board>, r: Board) {
    exists d :: d in tried && r == tried[d]
  }

  /** The guess loop's record has an entry for exactly the unknown cells before
      `(row, col)` in row-major order, and each entry has one key per candidate of
      its cell. */
  predicate RecordKeys(b: Board, tried: map<(Idx, Idx), map<nat, Board>>, row: int, col: int)
    requires Shaped(b)
  {
    && (forall i: Idx, j: Idx :: (i, j) in tried <==> At(b, i, j).val == 0 && (i < row || (i == row && j < col)))
    && (forall i: Idx, j: Idx :: (i, j) in tried ==> tried[(i, j)].Keys == At(b, i, j).digits)
  }

  /** Every recorded guess left a board behind as `Guessed` says, and it is kept
      exactly when it is full. */
  ghost predicate RecordResults(b: Board, tried: map<(Idx, Idx), map<nat, Board>>, solutions: seq<Board>)
    requires Shaped(b)
  {
    forall i: Idx, j: Idx, d: nat :: (i, j) in tried && d in tried[(i, j)] ==>
      Guessed(b, i, j, d, tried[(i, j)][d]) && (Full(tried[(i, j)][d]) <==> tried[(i, j)][d] in solutions)
  }

  /** Every kept board is the result of a recorded guess. */
  predicate RecordKept(tried: map<(Idx, Idx), map<nat, Board>>, solutions: seq<Board>) {
    forall k :: 0 <= k < |solutions| ==> GuessedBoard(tried, solutions[k])
  }

  /** The guess loop's record up to `(row, col)` in row-major order: `tried` maps
      every candidate of every unknown cell before it to the board its guess left
      behind, and `solutions` keeps exactly the full ones. */
  ghost predicate RecordedBefore(b: Board, tried: map<(Idx, Idx), map<nat, Board>>, solutions: seq<Board>, row: int, col: int)
    requires Shaped(b)
  {
    RecordKeys(b, tried, row, col) && RecordResults(b, tried, solutions) && RecordKept(tried, solutions)
  }

  /** The record of the whole guess loop: every candidate of every unknown cell. */
  ghost predicate GuessRecord(b: Board, tried: map<(Idx, Idx), map<nat, Board>>, solutions: seq<Board>)
    requires Shaped(b)
  {
    RecordedBefore(b, tried, solutions, 9, 0)
  }

  /** `r` is the board some guess in the record left behind. */
  predicate GuessedBoard(tried: map<(Idx, Idx), map<nat, Board>>, r: Board) {
    exists i: Idx, j: Idx, d: nat :: (i, j) in tried && d in tried[(i, j)] && r == tried[(i, j)][d]
  }

  /** Some guess in the record left a full board behind. */
  predicate SomeGuessFull(tried: map<(Idx, Idx), map<nat, Board>>) {
    exists i: Idx, j: Idx, d: nat :: (i, j) in tried && d in tried[(i, j)] && Shaped(tried[(i, j)][d]) && Full(tried[(i, j)][d])
  }

  /** Every kept board is full. */
  predicate AllFull(solutions: seq<Board>) {
    forall k :: 0 <= k < |solutions| ==> Shaped(solutions[k]) && Full(solutions[k])
  }

  /** A known cell adds nothing to the record. */
  lemma RecordSkip(b: Board, tried: map<(Idx, Idx), map<nat, Board>>, solutions: seq<Board>, row: Idx, col: Idx)
    requires Shaped(b) && RecordedBefore(b, tried, solutions, row, col) && At(b, row, col).val != 0
    ensures RecordedBefore(b, tried, solutions, row, col + 1)
  {
  }

  /** After the last column the record moves on to the next row. */
  lemma RecordNextRow(b: Board, tried: map<(Idx, Idx), map<nat, Board>>, solutions: seq<Board>, row: Idx)
    requires Shaped(b) && RecordedBefore(b, tried, solutions, row, 9)
    ensures RecordedBefore(b, tried, solutions, row + 1, 0)
  {
  }

  /** Adding the guesses of one unknown cell extends the record past that cell. */
  lemma RecordCell(b: Board, tried: map<(Idx, Idx), map<nat, Board>>, solutions: seq<Board>,
                   row: Idx, col: Idx, cell: map<nat, Board>, found: seq<Board>)
    requires Shaped(b) && RecordedBefore(b, tried, solutions, row, col) && At(b, row, col).val == 0
    requires AllFull(solutions) && AllFull(found)
    requires CellRecord(b, row, col, cell, found)
    ensures RecordedBefore(b, tried[(row, col) := cell], solutions + found, row, col + 1)
  {
    RecordCellKeys(b, tried, row, col, cell);
    RecordCellResults(b, tried, solutions, row, col, cell, found);
    RecordCellKept(b, tried, solutions, row, col, cell, found);
  }

  lemma RecordCellKeys(b: Board, tried: map<(Idx, Idx), map<nat, Board>>, row: Idx, col: Idx, cell: map<nat, Board>)
    requires Shaped(b) && RecordKeys(b, tried, row, col) && At(b, row, col).val == 0
    requires cell.Keys == At(b, row, col).digits
    ensures RecordKeys(b, tried[(row, col) := cell], row, col + 1)
  {
  }

  lemma {:induction false} RecordCellResults(b: Board, tried: map<(Idx, Idx), map<nat, Board>>, solutions: seq<Board>,
                                             row: Idx, col: Idx, cell: map<nat, Board>, found: seq<Board>)
    requires Shaped(b) && RecordResults(b, tried, solutions)
    requires AllFull(solutions) && AllFull(found)
    requires CellRecord(b, row, col, cell, found)
    ensures RecordResults(b, tried[(row, col) := cell], solutions + found)
  {
    var tried', solutions' := tried[(row, col) := cell], solutions + found;
    forall i: Idx, j: Idx, d: nat | (i, j) in tried' && d in tried'[(i, j)]
      ensures Guessed(b, i, j, d, tried'[(i, j)][d]) && (Full(tried'[(i, j)][d]) <==> tried'[(i, j)][d] in solutions')
    {
      var r := tried'[(i, j)][d];
      if (i, j) == (row, col) {
        assert r == cell[d];
        if r in solutions {
          var k :| 0 <= k < |solutions| && solutions[k] == r;
        }
      } else {
        assert r == tried[(i, j)][d];
        if r in found {
          var k :| 0 <= k < |found| && found[k] == r;
        }
      }
    }
  }

  lemma {:induction false} RecordCellKept(b: Board, tried: map<(Idx, Idx), map<nat, Board>>, solutions: seq<Board>,
                                          row: Idx, col: Idx, cell: map<nat, Board>, found: seq<Board>)
    requires Shaped(b) && RecordKept(tried, solutions) && (row, col) !in tried
    requires CellRecord(b, row, col, cell, found)
    ensures RecordKept(tried[(row, col) := cell], solutions + found)
  {
    var tried', solutions' := tried[(row, col) := cell], solutions + found;
    forall k | 0 <= k < |solutions'|
      ensures GuessedBoard(tried', solutions'[k])
    {
      if k < |solutions| {
        assert GuessedBoard(tried, solutions[k]);
        var i: Idx, j: Idx, d: nat :| (i, j) in tried && d in tried[(i, j)] && solutions[k] == tried[(i, j)][d];
        assert solutions'[k] == tried'[(i, j)][d];
      } else {
        assert TriedBoard(cell, found[k - |solutions|]);
        var d: nat :| d in cell && found[k - |solutions|] == cell[d];
        assert solutions'[k] == tried'[(row, col)][d];
      }
    }
  }

  /** The guess loop keeps a board exactly when some guess's `solve` filled the
      board. */
  lemma KeptIffSomeGuessFull(b: Board, tried: map<(Idx, Idx), map<nat, Board>>, solutions: seq<Board>)
    requires Shaped(b) && GuessRecord(b, tried, solutions)
    ensures |solutions| > 0 <==> SomeGuessFull(tried)
  {
    if |solutions| > 0 {
      assert GuessedBoard(tried, solutions[0]);
      var i: Idx, j: Idx, d: nat :| (i, j) in tried && d in tried[(i, j)] && solutions[0] == tried[(i, j)][d];
      assert Shaped(tried[(i, j)][d]) && Full(tried[(i, j)][d]);
    }
    if SomeGuessFull(tried) {
      var i: Idx, j: Idx, d: nat :| (i, j) in tried && d in tried[(i, j)] && Shaped(tried[(i, j)][d]) && Full(tried[(i, j)][d]);
      assert tried[(i, j)][d] in solutions;
    }
  }

  /** Every kept board is a full refinement of `b`, and a solution of it when `b`
      obeys the rule. */
  predicate KeptSound(b: Board, solutions: seq<Board>)
    requires Shaped(b)
  {
    forall k :: 0 <= k < |solutions| ==>
      && WellFormed(solutions[k]) && Full(solutions[k]) && Refines(b, solutions[k])
      && (Consistent(b) ==> Completes(b, solutions[k]))
  }

  /** The guess loop: every unknown cell, every candidate digit of it, one at a
      time; the boards `solve` completes are collected. `tried` records the board
      each guess left behind. */
  method GuessSingle(b: Board) returns (solutions: seq<Board>, ghost tried: map<(Idx, Idx), map<nat, Board>>)
    requires WellFormed(b)
    ensures GuessRecord(b, tried, solutions)
    ensures Full(b) ==> solutions == []
    ensures forall k :: 0 <= k < |solutions| ==> WellFormed(solutions[k]) && Full(solutions[k]) && Refines(b, solutions[k])
    ensures Consistent(b) ==> forall k :: 0 <= k < |solutions| ==> Completes(b, solutions[k])
  {
    solutions, tried := [], map[];
    for row := 0 to 9
      invariant RecordedBefore(b, tried, solutions, row, 0) && KeptSound(b, solutions)
      invariant Full(b) ==> solutions == []
    {
      solutions, tried := GuessRow(b, row, tried, solutions);
    }
  }

  /** The guesses at the unknown cells of one row, left to right. */
  method GuessRow(b: Board, row: Idx, ghost tried0: map<(Idx, Idx), map<nat, Board>>, solutions0: seq<Board>)
    returns (solutions: seq<Board>, ghost tried: map<(Idx, Idx), map<nat, Board>>)
    requires WellFormed(b) && RecordedBefore(b, tried0, solutions0, row, 0) && KeptSound(b, solutions0)
    requires Full(b) ==> solutions0 == []
    ensures RecordedBefore(b, tried, solutions, row + 1, 0) && KeptSound(b, solutions)
    ensures Full(b) ==> solutions == []
    ensures solutions0 <= solutions
  {
    solutions, tried := solutions0, tried0;
    for col := 0 to 9
      invariant RecordedBefore(b, tried, solutions, row, col) && KeptSound(b, solutions)
      invariant Full(b) ==> solutions == []
      invariant solutions0 <= solutions
    {
      if At(b, row, col).val == 0 {
        var found, cell := GuessCell(b, row, col);
        assert AllFull(solutions) && AllFull(found);
        RecordCell(b, tried, solutions, row, col, cell, found);
        solutions, tried := solutions + found, tried[(row, col) := cell];
      } else {
        RecordSkip(b, tried, solutions, row, col);
      }
    }
    RecordNextRow(b, tried, solutions, row);
  }

  /** All guesses at one unknown cell: each candidate `d` is tried once on a copy
      of `b`, `tried[d]` is the board its `solve` left behind, and the full ones
      are kept. */
  method GuessCell(b: Board, row: Idx, col: Idx) returns (solutions: seq<Board>, ghost tried: map<nat, Board>)
    requires WellFormed(b) && At(b, row, col).val == 0
    ensures CellRecord(b, row, col, tried, solutions)
    ensures forall k :: 0 <= k < |solutions| ==>
      WellFormed(solutions[k]) && Full(solutions[k]) && Refines(b, solutions[k]) && At(solutions[k], row, col).val in At(b, row, col).digits
    ensures Consistent(b) ==> forall k :: 0 <= k < |solutions| ==> Completes(b, solutions[k])
  {
    solutions, tried := [], map[];
    var left := At(b, row, col).digits;
    while left != {}
      invariant left <= At(b, row, col).digits
      invariant tried.Keys == At(b, row, col).digits - left
      invariant CellProgress(b, row, col, tried, solutions)
      decreases left
    {
      var d :| d in left;
      left := left - {d};
      solutions, tried := GuessOne(b, row, col, d, tried, solutions);
    }
    CellDone(b, row, col, tried, solutions);
  }

  /** Once every candidate is tried, the state of the guesses at the cell is the
      cell's complete record. */
  lemma CellDone(b: Board, row: Idx, col: Idx, tried: map<nat, Board>, solutions: seq<Board>)
    requires Shaped(b) && tried.Keys == At(b, row, col).digits && CellProgress(b, row, col, tried, solutions)
    ensures CellRecord(b, row, col, tried, solutions)
    ensures forall k :: 0 <= k < |solutions| ==>
      WellFormed(solutions[k]) && Full(solutions[k]) && Refines(b, solutions[k]) && At(solutions[k], row, col).val in At(b, row, col).digits
    ensures Consistent(b) ==> forall k :: 0 <= k < |solutions| ==> Completes(b, solutions[k])
  {
  }

  /** The state of the guesses at one cell: the record so far, and every kept
      board is a full refinement of `b` holding a candidate of the cell. */
  ghost predicate CellProgress(b: Board, row: Idx, col: Idx, tried: map<nat, Board>, solutions: seq<Board>)
    requires Shaped(b)
  {
    && CellResults(b, row, col, tried, solutions) && CellKept(tried, solutions) && KeptSound(b, solutions)
    && forall k :: 0 <= k < |solutions| ==> At(solutions[k], row, col).val in At(b, row, col).digits
  }

  /** One pass of the loop over a cell's candidates: guess `d`, record the board
      its `solve` left behind, and keep that board when it is full. */
  method GuessOne(b: Board, row: Idx, col: Idx, d: nat, ghost tried0: map<nat, Board>, solutions0: seq<Board>)
    returns (solutions: seq<Board>, ghost tried: map<nat, Board>)
    requires WellFormed(b) && At(b, row, col).val == 0 && d in At(b, row, col).digits && d !in tried0
    requires CellProgress(b, row, col, tried0, solutions0)
    ensures solutions0 <= solutions && |solutions| <= |solutions0| + 1
    ensures forall k :: |solutions0| <= k < |solutions| ==> Shaped(solutions[k]) && Full(solutions[k]) && At(solutions[k], row, col).val == d
    ensures tried.Keys == tried0.Keys + {d}
    ensures CellProgress(b, row, col, tried, solutions)
  {
    ghost var start, steps;
    var ok, result;
    ok, result, start, steps := TryGuess(b, row, col, d);
    GuessStep(b, row, col, d, tried0, solutions0, result, ok);
    tried := tried0[d := result];
    solutions := if ok then solutions0 + [result] else solutions0;
  }

  /** Recording a guess's board, and keeping it when it is full, keeps the state
      of the guesses at the cell. */
  lemma GuessStep(b: Board, row: Idx, col: Idx, d: nat, tried: map<nat, Board>, solutions: seq<Board>, guessed: Board, ok: bool)
    requires Shaped(b) && d in At(b, row, col).digits && d !in tried
    requires CellProgress(b, row, col, tried, solutions)
    requires Guessed(b, row, col, d, guessed) && (ok <==> Full(guessed))
    ensures CellProgress(b, row, col, tried[d := guessed], if ok then solutions + [guessed] else solutions)
  {
    GuessAdded(b, row, col, tried, solutions, d, guessed, ok);
  }

  /** Recording one more guess, and keeping its board when it is full, keeps the
      kept boards exactly the full results. */
  lemma {:induction false} GuessAdded(b: Board, row: Idx, col: Idx, tried: map<nat, Board>, solutions: seq<Board>,
                                      d: nat, guessed: Board, ok: bool)
    requires Shaped(b) && d !in tried && Guessed(b, row, col, d, guessed) && (ok <==> Full(guessed))
    requires CellResults(b, row, col, tried, solutions) && CellKept(tried, solutions)
    ensures var tried', solutions' := tried[d := guessed], if ok then solutions + [guessed] else solutions;
      CellResults(b, row, col, tried', solutions') && CellKept(tried', solutions')
  {
    var tried', solutions' := tried[d := guessed], if ok then solutions + [guessed] else solutions;
    forall e | e in tried'
      ensures Guessed(b, row, col, e, tried'[e]) && (Full(tried'[e]) <==> tried'[e] in solutions')
    {
      if e == d {
        forall k | 0 <= k < |solutions|
          ensures solutions[k] != guessed
        {
          assert TriedBoard(tried, solutions[k]);
          var e': nat :| e' in tried && solutions[k] == tried[e'];
          assert At(solutions[k], row, col).val == e' != d;
        }
      } else {
        assert tried'[e] == tried[e];
        assert At(tried[e], row, col).val != At(guessed, row, col).val;
      }
    }
    forall k | 0 <= k < |solutions'|
      ensures TriedBoard(tried', solutions'[k])
    {
      if k < |solutions| {
        assert TriedBoard(tried, solutions[k]);
        var e: nat :| e in tried && solutions[k] == tried[e];
        assert e != d;
        assert solutions'[k] == tried'[e];
      } else {
        assert solutions'[k] == tried'[d];
      }
    }
  }

  /** The whole program on one puzzle: `solved` is what it reports at the end,
      `loaded` the board `new_with` builds from the givens, `board` what the first
      `solve` leaves of it after the moves `steps`, `solutions` the boards the
      guesses completed, and `guesses` the board every guess left behind. */
  method SolvePuzzle(grid: Grid) returns (solved: bool, board: Board, solutions: seq<Board>,
                                          ghost loaded: Board, ghost steps: seq<Move>,
                                          ghost guesses: map<(Idx, Idx), map<nat, Board>>)
    requires |grid| == 81
    ensures Loaded(grid, loaded, 81) && Follows(loaded, steps, board)
    ensures !Full(board) ==> Exhausted(board) || Stalled(board)
    ensures WellFormed(board) && GuessRecord(board, guesses, solutions)
    ensures solved <==> Full(board) || SomeGuessFull(guesses)
    ensures solved <==> Full(board) || |solutions| > 0
    ensures Full(board) ==> solutions == []
    ensures ValidGivens(grid) ==> forall s :: SolutionOf(grid, s) ==> Completes(board, s)
    ensures ValidGivens(grid) && Full(board) ==> SolutionOf(grid, board)
    ensures ValidGivens(grid) && Exhausted(board) ==> forall s :: !SolutionOf(grid, s)
    ensures ValidGivens(grid) ==> forall k :: 0 <= k < |solutions| ==> SolutionOf(grid, solutions[k])
  {
    var start := NewWith(grid);
    loaded := start;
    var ok;
    ok, board, steps := Solve(start);
    solutions, guesses := GuessSingle(board);
    KeptIffSomeGuessFull(board, guesses, solutions);
    solved := ok || |solutions| > 0;
    if ValidGivens(grid) {
      LoadedConsistent(grid, loaded);
      forall s
        ensures SolutionOf(grid, s) <==> Completes(loaded, s)
      {
        LoadedCompletions(grid, loaded, s);
      }
      FollowsRefines(loaded, steps, board);
      if Full(board) {
        FullConsistentIsSolved(board);
        SolvedRefinementCompletes(loaded, board);
      }
      forall k | 0 <= k < |solutions|
        ensures SolutionOf(grid, solutions[k])
      {
        RefinesTransitive(loaded, board, solutions[k]);
        SolvedRefinementCompletes(loaded, solutions[k]);
      }
    }
  }

  /** When `solve` alone finishes a valid puzzle, the puzzle has exactly one
      solution: every solution agrees with the board cell by cell. */
  lemma SolvedBoardIsUnique(grid: Grid, board: Board, s: Board)
    requires |grid| == 81 && Shaped(board) && Full(board)
    requires forall t :: SolutionOf(grid, t) ==> Completes(board, t)
    requires SolutionOf(grid, s)
    ensures forall i: Idx, j: Idx :: At(s, i, j).val == At(board, i, j).val
  {
    FullCompletionIsBoard(board, s);
  }
}

=== FILE: solver.dfy ===
/** `SudokuBoard::solve`: sweep the board in row-major order applying the
    deduction rules, until a sweep finds no unknown cell (solved), a dead cell
    (failed) or makes no progress (stuck). */
module Solver {
  import opened Cells
  import opened Boards
  import opened Invariants
  import opened Deduction
  import opened Forcing

  /** `trail` lists the boards from `a` to `b`: each one is the previous one
      after the justified move at the same index of `steps`. */
  ghost predicate Trace(a: Board, steps: seq<Move>, trail: seq<Board>, b: Board) {
    && |trail| == |steps| + 1
    && trail[0] == a && trail[|steps|] == b
    && (forall k :: 0 <= k < |trail| ==> Shaped(trail[k]))
    && forall k :: 0 <= k < |steps| ==>
         Justified(trail[k], steps[k]) && Placed(trail[k], steps[k].digit, steps[k].row, steps[k].col, trail[k + 1])
  }

  /** `b` is reached from `a` by `steps`, each a justified deduction on the
      board it was made on. */
  ghost predicate Follows(a: Board, steps: seq<Move>, b: Board) {
    exists trail :: Trace(a, steps, trail, b)
  }

  lemma FollowsStart(a: Board)
    requires Shaped(a)
    ensures Follows(a, [], a)
  {
    assert Trace(a, [], [a], a);
  }

  lemma FollowsExtend(a: Board, steps: seq<Move>, b: Board, m: Move, b': Board)
    requires Follows(a, steps, b) && Justified(b, m) && Placed(b, m.digit, m.row, m.col, b')
    ensures Follows(a, steps + [m], b')
  {
    var trail :| Trace(a, steps, trail, b);
    var s, t := steps + [m], trail + [b'];
    forall k | 0 <= k < |s|
      ensures Justified(t[k], s[k]) && Placed(t[k], s[k].digit, s[k].row, s[k].col, t[k + 1])
    {
      if k < |steps| {
        assert t[k] == trail[k] && t[k + 1] == trail[k + 1] && s[k] == steps[k];
      }
    }
    assert Trace(a, s, t, b');
  }

  /** A trace of deductions only ever refines the board it starts from. */
  lemma {:induction false} TraceRefines(a: Board, steps: seq<Move>, trail: seq<Board>, b: Board)
    requires Trace(a, steps, trail, b)
    ensures Refines(a, b)
    decreases |steps|
  {
    if steps == [] {
      RefinesReflexive(a);
    } else {
      var n := |steps| - 1;
      var mid, m := trail[n], steps[n];
      assert Trace(a, steps[..n], trail[..n + 1], mid);
      TraceRefines(a, steps[..n], trail[..n + 1], mid);
      PlacedRefines(mid, m.digit, m.row, m.col, b);
      RefinesTransitive(a, mid, b);
    }
  }

  lemma FollowsRefines(a: Board, steps: seq<Move>, b: Board)
    requires Follows(a, steps, b)
    ensures Refines(a, b)
  {
    var trail :| Trace(a, steps, trail, b);
    TraceRefines(a, steps, trail, b);
  }

  /** A trace of deductions keeps a board that obeys the Sudoku rule obeying it. */
  lemma {:induction false} TraceKeepsConsistent(a: Board, steps: seq<Move>, trail: seq<Board>, b: Board)
    requires Trace(a, steps, trail, b) && Consistent(a)
    ensures Consistent(b)
    decreases |steps|
  {
    if steps != [] {
      var n := |steps| - 1;
      var mid, m := trail[n], steps[n];
      assert Trace(a, steps[..n], trail[..n + 1], mid);
      TraceKeepsConsistent(a, steps[..n], trail[..n + 1], mid);
      PlacedKeepsConsistent(mid, m.digit, m.row, m.col, b);
    }
  }

  lemma FollowsKeepsConsistent(a: Board, steps: seq<Move>, b: Board)
    requires Follows(a, steps, b) && Consistent(a)
    ensures Consistent(b)
  {
    var trail :| Trace(a, steps, trail, b);
    TraceKeepsConsistent(a, steps, trail, b);
  }

  /** Every solution that agrees with the start of a trace agrees with its end:
      deduction never loses a solution. */
  lemma {:induction false} TraceKeepsCompletion(a: Board, steps: seq<Move>, trail: seq<Board>, b: Board, s: Board)
    requires Trace(a, steps, trail, b) && Consistent(a) && Completes(a, s)
    ensures Completes(b, s)
    decreases |steps|
  {
    if steps != [] {
      var n := |steps| - 1;
      var mid, m := trail[n], steps[n];
      assert Trace(a, steps[..n], trail[..n + 1], mid);
      TraceKeepsCompletion(a, steps[..n], trail[..n + 1], mid, s);
      TraceKeepsConsistent(a, steps[..n], trail[..n + 1], mid);
      MoveKeepsCompletion(mid, m, b, s);
    }
  }

  lemma FollowsKeepsCompletion(a: Board, steps: seq<Move>, b: Board)
    requires Follows(a, steps, b) && Consistent(a)
    ensures forall s :: Completes(a, s) ==> Completes(b, s)
  {
    var trail :| Trace(a, steps, trail, b);
    forall s | Completes(a, s)
      ensures Completes(b, s)
    {
      TraceKeepsCompletion(a, steps, trail, b, s);
    }
  }

  /** Some unknown cell has no candidate left: `solve`'s failure exit. */
  predicate Exhausted(b: Board)
    requires Shaped(b)
  {
    exists i: Idx, j: Idx :: At(b, i, j).val == 0 && At(b, i, j).digits == {}
  }

  /** Unknown cells remain, each still has candidates, and no rule fires at any
      of them: a whole sweep makes no progress. */
  predicate Stalled(b: Board)
    requires Shaped(b)
  {
    && !Full(b)
    && forall i: Idx, j: Idx :: Settled(b, i, j)
  }

  /** Nothing to do at `(i, j)`: it is placed, or it has candidates but no rule
      fires there. */
  predicate Settled(b: Board, i: Idx, j: Idx)
    requires Shaped(b)
  {
    At(b, i, j).val != 0 || (At(b, i, j).digits != {} && Stuck(b, i, j))
  }

  /** Makes a move with `set`. */
  method Apply(b: Board, m: Move) returns (b': Board)
    requires Shaped(b)
    ensures Placed(b, m.digit, m.row, m.col, b')
  {
    b' := Set(b, m.digit, m.row, m.col);
  }

  /** One cell of a sweep: skip it if placed, report it if dead, otherwise try
      the rules and apply the move they find. */
  method VisitCell(b: Board, row: Idx, col: Idx, ghost origin: Board, ghost prior: seq<Move>)
    returns (open: bool, dead: bool, moved: bool, b': Board, ghost steps: seq<Move>)
    requires WellFormed(b) && Follows(origin, prior, b)
    ensures WellFormed(b') && Follows(origin, steps, b')
    ensures open <==> At(b, row, col).val == 0
    ensures dead <==> open && At(b, row, col).digits == {}
    ensures moved <==> open && !dead && !Stuck(b, row, col)
    ensures moved ==> Open(b') == Open(b) - {(row, col)} && ValuesKept(b, b', row, col)
    ensures !moved ==> b' == b && steps == prior
  {
    b', steps := b, prior;
    open := At(b, row, col).val == 0;
    dead := open && At(b, row, col).digits == {};
    moved := false;
    if open && !dead {
      var found := Deduce(b, row, col);
      if found.Some? {
        var m := found.value;
        b' := Apply(b, m);
        steps := prior + [m];
        moved := true;
        FollowsExtend(origin, prior, b, m, b');
        PlacedKeepsWellFormed(b, m.digit, row, col, b');
        PlacedEffect(b, m.digit, row, col, b');
        PlacedCloses(b, m.digit, row, col, b');
      }
    }
  }

  /** Position `(i, j)` comes before `(row, col)` in row-major order. */
  predicate Before(i: Idx, j: Idx, row: int, col: int) {
    i < row || (i == row && j < col)
  }

  /** The state of a sweep that started at `b0` and has visited every position
      before `(row, col)`: `b` is reached by justified moves and has lost only
      unknown cells; `sawOpen` and `progressed` are the flags `has_empty` and
      `has_solution`; positions not yet visited still hold their values from
      `b0`; and a sweep that has made no move has found nothing to do so far. */
  ghost predicate Swept(
    b0: Board, b: Board, row: int, col: int, sawOpen: bool, progressed: bool,
    origin: Board, prior: seq<Move>, steps: seq<Move>)
  {
    && WellFormed(b0) && WellFormed(b) && Follows(origin, steps, b)
    && Open(b) <= Open(b0) && (progressed ==> Open(b) < Open(b0))
    && (!progressed ==> b == b0 && steps == prior)
    && (forall i: Idx, j: Idx :: !Before(i, j, row, col) ==> At(b, i, j).val == At(b0, i, j).val)
    && (sawOpen ==> !Full(b0))
    && (!sawOpen ==> !progressed && forall i: Idx, j: Idx :: Before(i, j, row, col) ==> At(b0, i, j).val != 0)
    && (!progressed ==> forall i: Idx, j: Idx :: Before(i, j, row, col) ==> Settled(b, i, j))
  }

  lemma SweptNextRow(
    b0: Board, b: Board, row: Idx, sawOpen: bool, progressed: bool,
    origin: Board, prior: seq<Move>, steps: seq<Move>)
    requires Swept(b0, b, row, 9, sawOpen, progressed, origin, prior, steps)
    ensures Swept(b0, b, row + 1, 0, sawOpen, progressed, origin, prior, steps)
  {
  }

  datatype PassOutcome =
    | DeadCell(row: Idx, col: Idx)
    | Finished(sawOpen: bool, progressed: bool)

  /** One iteration of `solve`'s outer loop: the row-major sweep. */
  method Pass(b0: Board, ghost origin: Board, ghost prior: seq<Move>)
    returns (outcome: PassOutcome, b: Board, ghost steps: seq<Move>)
    requires WellFormed(b0) && Follows(origin, prior, b0)
    ensures WellFormed(b) && Follows(origin, steps, b)
    ensures outcome.DeadCell? ==> !Full(b0) && At(b, outcome.row, outcome.col).val == 0 && At(b, outcome.row, outcome.col).digits == {}
    ensures outcome.Finished? ==> (outcome.sawOpen <==> !Full(b0))
    ensures outcome.Finished? && outcome.progressed ==> Open(b) < Open(b0)
    ensures outcome.Finished? && !outcome.progressed ==> b == b0 && steps == prior && (outcome.sawOpen ==> Stalled(b0))
  {
    b, steps := b0, prior;
    var sawOpen, progressed := false, false;
    for row := 0 to 9
      invariant Swept(b0, b, row, 0, sawOpen, progressed, origin, prior, steps)
    {
      var dead, deadCol;
      dead, deadCol, b, sawOpen, progressed, steps := SweepRow(b0, row, b, sawOpen, progressed, origin, prior, steps);
      if dead {
        return DeadCell(row, deadCol), b, steps;
      }
    }
    assert forall i: Idx, j: Idx :: Before(i, j, 9, 0);
    return Finished(sawOpen, progressed), b, steps;
  }

  /** The inner loop of a sweep: the nine cells of one row, left to right. */
  method SweepRow(
    b0: Board, row: Idx, b: Board, sawOpen: bool, progressed: bool,
    ghost origin: Board, ghost prior: seq<Move>, ghost steps: seq<Move>)
    returns (dead: bool, deadCol: Idx, b': Board, sawOpen': bool, progressed': bool, ghost steps': seq<Move>)
    requires Swept(b0, b, row, 0, sawOpen, progressed, origin, prior, steps)
    ensures WellFormed(b') && Follows(origin, steps', b')
    ensures dead ==> !Full(b0) && At(b', row, deadCol).val == 0 && At(b', row, deadCol).digits == {}
    ensures !dead ==> Swept(b0, b', row + 1, 0, sawOpen', progressed', origin, prior, steps')
  {
    b', sawOpen', progressed', steps' := b, sawOpen, progressed, steps;
    dead, deadCol := false, 0;
    for col := 0 to 9
      invariant Swept(b0, b', row, col, sawOpen', progressed', origin, prior, steps')
    {
      var open, isDead, moved, next, more := VisitCell(b', row, col, origin, steps');
      if open {
        sawOpen' := true;
      }
      if isDead {
        return true, col, b', sawOpen', progressed', steps';
      }
      if moved {
        progressed' := true;
      }
      b', steps' := next, more;
    }
    SweptNextRow(b0, b', row, sawOpen', progressed', origin, prior, steps');
  }

  /** `SudokuBoard::solve`. `ok` is its return value and `b` the board it leaves
      behind; `steps` is the trace of moves it made. */
  method Solve(start: Board) returns (ok: bool, b: Board, ghost steps: seq<Move>)
    requires WellFormed(start)
    ensures WellFormed(b) && Follows(start, steps, b)
    ensures Refines(start, b)
    ensures ok <==> Full(b)
    ensures !ok ==> Exhausted(b) || Stalled(b)
    ensures Full(start) ==> ok && b == start && steps == []
    ensures Consistent(start) ==> Consistent(b)
    ensures ok && Consistent(start) ==> Solved(b)
    ensures Consistent(start) ==> forall s :: Completes(start, s) ==> Completes(b, s)
    ensures Consistent(start) && Exhausted(b) ==> forall s :: !Completes(start, s)
  {
    b, steps := start, [];
    FollowsStart(start);
    while true
      invariant WellFormed(b) && Follows(start, steps, b)
      invariant Full(start) ==> b == start && steps == []
      decreases Open(b)
    {
      var outcome, next, more := Pass(b, start, steps);
      if outcome.DeadCell? {
        b, steps := next, more;
        ok := false;
        assert Exhausted(b) by {
          assert At(b, outcome.row, outcome.col).val == 0;
        }
        break;
      }
      b, steps := next, more;
      if !outcome.sawOpen {
        ok := true;
        break;
      }
      if !outcome.progressed {
        ok := false;
        break;
      }
    }
    FollowsRefines(start, steps, b);
    if Consistent(start) {
      FollowsKeepsConsistent(start, steps, b);
      FollowsKeepsCompletion(start, steps, b);
      if Exhausted(b) {
        var row: Idx, col: Idx :| At(b, row, col).val == 0 && At(b, row, col).digits == {};
        forall s {
          DeadCellNoCompletion(b, row, col, s);
        }
      }
    }
  }
}
